=== FILE: README.md ===
# sales-performance-api in Dafny

This project models the request handling of the sales-performance API. That API is an Express/Mongoose service that stores salespeople (users), monthly sales targets and sales. It reports monthly and yearly commissions. The model covers the following pieces:

- **Validation service.** The e-mail check, the per-field validators for user, sale and target requests, and the bulk partitioner that splits a batch of sales into valid items and indexed error lists.
- **Commission service.** A rate fixed at construction, the commission of one sale, and the total over a list of sales.
- **The four controllers.** Users, targets, sales and commissions. Each handler is a pure transition `(store, request) -> (store', outcome)`. The Mongo collections are finite maps from id to record. The outcome is one of `Ok`, `Created`, `BadRequest`, `NotFound` or `ServerError`, and it carries the handler's `{field, message}` error list.

What the handlers take from their surroundings is passed in explicitly, as an `Env` value:

- **Date parsing.** `new Date(s)` is a function to `Option<Instant>`.
- **The clock.** "now" and the instant one calendar year ahead are both supplied values.
- **`ObjectId.isValid`.** This is a supplied predicate.

Fresh record ids are parameters that are not yet in the store.

Two service calls the controllers make are not defined in the source. The first is the three-argument `calculateCommission(userId, month, year)`; the service only defines `calculateCommission(sale, user)` at src/services/commissionService.ts:11. The second is `processBulkSales`. Both are parameters of the handlers that use them (`CommissionController.Engine`, `SalesController.BulkProcessor`).

Files:

| file | module | contents |
|---|---|---|
| wrappers.dfy | Wrappers | `Option`, `Result` |
| types.dfy | Types | JSON values, request and record types, enums, `Outcome`, `Env` |
| email.dfy | Email | the e-mail pattern as an automaton, proved equal to its `L@A.B` reading |
| validation.dfy | Validation | the validation service |
| commission_service.dfy | CommissionService | the commission service |
| sorting.dfy | Sorting | descending listing by a two-part key (the queries' `sort`) |
| user_controller.dfy | UserController | `createUser`, `getUsers`, `updateUserRegion`, `deleteUser` |
| targets_controller.dfy | TargetsController | `createTarget`, `getTargets`, `updateTarget`, `deleteTarget` |
| sales_controller.dfy | SalesController | `createSale`, `bulkImportSales`, `getSales` |
| commission_controller.dfy | CommissionController | `getCommission`, `getCommissionSummary` |

## Model

| member | source | states |
|---|---|---|
| Email.ValidateEmail | src/services/validationService.ts:5-8 | The pattern `^[^\s@]+@[^\s@]+\.[^\s@]+$` accepts `s` exactly when `s` is `L@A.B` with `L`, `A`, `B` non-empty and free of whitespace and `@` (`A` and `B` may contain dots). |
| Email.ShapeIffStart | src/services/validationService.ts:6 | The `L@A.B` decomposition exists exactly when the first character is plain and the rest of the input completes the pattern from the local part. The automaton is proved against this characterisation. |
| Email.LocalAccepts | src/services/validationService.ts:6 | From inside the local part, the automaton accepts exactly when the rest is more local characters, then `@`, then a domain with a dot that has a plain character on each side. |
| Types.RegionOf | src/services/validationService.ts:37-38 | A value names a region exactly when it is one of the strings north, south, east, west, and the region's name is that string. |
| Types.CategoryOf | src/services/validationService.ts:90-91 | A value names a category exactly when it is one of software, hardware, consulting, support. |
| Types.MissingString | src/services/validationService.ts:23 | The guard `!v \|\| typeof v !== 'string'` holds exactly when `v` is not a non-empty string. |
| Validation.ValidateAmount | src/services/validationService.ts:10-12 | An amount is accepted exactly when it is positive and a whole number of cents. |
| Validation.UserIdErrors | src/services/validationService.ts:61-64 | `user_id` gets one error exactly when it is not a non-empty string, and none otherwise. The error is "User ID is required". |
| Validation.NameErrors | src/services/validationService.ts:22-27 | `name` gets at most one error, exactly when it is not a string of length 2 to 50 inclusive. A value that is not a non-empty string gets "Name is required"; a string of the wrong length gets "Name must be between 2 and 50 characters". |
| Validation.EmailErrors | src/services/validationService.ts:29-34 | `email` gets at most one error, exactly when it is not a string of the `L@A.B` shape. A value that is not a non-empty string gets "Email is required"; a string of another shape gets "Email format is invalid". |
| Validation.RegionErrors | src/services/validationService.ts:36-40 | `region` gets at most one error, exactly when it names none of the four regions, and then it is the message listing them. |
| Validation.HireDateErrors | src/services/validationService.ts:42-53 | `hire_date` gets at most one error, exactly when it is not a non-empty string that parses to an instant no later than now. An accepted hire date is not in the future. The three reasons get their own messages: "is required" for a value that is not a non-empty string, "format is invalid" for one that does not parse (`validateDate`, lines 14-17, is the supplied parse function succeeding), and "cannot be in the future" for one after now. |
| Validation.ValidateUserData | src/services/validationService.ts:19-56 | The errors are one per failing field, in the order name, email, region, hire_date. The list is empty exactly when every field is accepted. |
| Validation.AmountErrors | src/services/validationService.ts:66-73 | `amount` gets at most one error, exactly when it is not a positive whole number of cents. A non-number gets "Amount must be a number", a number that is not positive gets "Amount must be positive", and a positive number with a fraction of a cent gets "Amount must have at most 2 decimal places". |
| Validation.SaleDateErrors | src/services/validationService.ts:75-87 | `date` gets at most one error, exactly when it is not a non-empty string that parses to an instant at most one year ahead. "Date is required", "Date format is invalid" (the parse fails) and "Date cannot be more than 1 year in the future" separate the three reasons. |
| Validation.CategoryErrors | src/services/validationService.ts:89-93 | `product_category` gets at most one error, exactly when it names none of the four categories, and then it is the message listing them. |
| Validation.RateErrors | src/services/validationService.ts:95-102 | An absent `commission_rate` gets no error. A present one gets one error exactly when it is not a number in [0, 20]: "Commission rate must be a number" for a non-number, "Commission rate must be between 0 and 20" for a number out of range. |
| Validation.ValidateSaleData | src/services/validationService.ts:58-105 | The errors are one per failing field, in the order user_id, amount, date, product_category, commission_rate. The list is empty exactly when every field is accepted, and then the amount is a positive number. |
| Validation.MonthErrors | src/services/validationService.ts:115-120 | `month` gets at most one error, exactly when it is not a number in [1, 12]: "Month must be a number" or "Month must be between 1 and 12". |
| Validation.YearErrors | src/services/validationService.ts:122-127 | `year` gets at most one error, exactly when it is not a number of at least 2020: "Year must be a number" or "Year must be 2020 or later". |
| Validation.TargetAmountErrors | src/services/validationService.ts:129-134 | `target_amount` gets at most one error, exactly when it is not a non-negative number: "Target amount must be a number" or, for a negative number, "Target amount must be positive". Zero is accepted. |
| Validation.ValidateTargetData | src/services/validationService.ts:107-137 | The errors are one per failing field, in field order. The list is empty exactly when user_id is a non-empty string, 1 ≤ month ≤ 12, year ≥ 2020 and target_amount ≥ 0. |
| Validation.Partition | src/services/validationService.ts:139-153 | `\|valid\| + \|errors\| = \|items\|`. `valid` is the passing items in input order. Every error entry names an item by index and carries that item's non-empty error list. Indices strictly increase. |
| Validation.PartitionReportsRejected | src/services/validationService.ts:143-150 | Item `i` is reported on the error side exactly when the check rejects it. |
| Validation.PassingMember | src/services/validationService.ts:144-146 | Everything on the valid side is an item of the batch that passes the check. |
| Validation.ValidateBulkSalesData | src/services/validationService.ts:139-153 | The batch is split by `validateSaleData`: the valid side is exactly the passing items in input order, and the two sides together hold one entry per item. The per-entry facts are in `BulkSalesSides` and `PartitionReportsRejected`. |
| Validation.BulkSalesSides | src/services/validationService.ts:139-153 | For a batch of sales, every valid item passes `validateSaleData`, and every error entry carries its item's non-empty `validateSaleData` errors. |
| Validation.NothingPassesIffAllRejected | src/services/validationService.ts:143-150 | The valid side is empty exactly when every item of the batch is rejected. |
| Validation.FlattenAllRejected | src/controllers/salesController.ts:89-93 | When nothing passes, flattening the error entries gives every item's errors, concatenated in index order. |
| CommissionService.CalculateCommission | src/services/commissionService.ts:11-16 | It fails exactly when the sale or the user is missing, with "Sale and User must be provided". Otherwise it returns amount × rate. |
| CommissionService.CalculateTotalCommission | src/services/commissionService.ts:18-26 | If the list is missing or empty, or the user is missing, it fails with "Sales and User must be provided". Otherwise, a list holding a missing (`null`/`undefined`) sale fails with "Sale and User must be provided", thrown from the per-sale call. Otherwise it returns rate × (sum of the amounts). |
| CommissionService.ReduceIsRateTimesTotal | src/services/commissionService.ts:22-25 | The left fold of per-sale commissions fails exactly when some sale is missing, with the per-sale message. Otherwise, from any seed, it gives the seed plus rate × the total amount. |
| CommissionService.TotalOfOneSale | src/services/commissionService.ts:18-26 | For a single sale, the total commission equals that sale's commission. |
| CommissionService.TotalSplits | src/services/commissionService.ts:22-25 | The total over a concatenation of two non-empty lists with no missing sale succeeds and is the sum of their totals. |
| CommissionService.MissingSaleFails | src/services/commissionService.ts:11-25 | A list with a missing sale anywhere fails with "Sale and User must be provided". |
| Sorting.SortEntries | src/controllers/targetsController.ts:91-94 | The listing is sorted descending by the two-part key. It is a permutation of the selected entries of the store. |
| Sorting.ListingMembers | src/controllers/targetsController.ts:91-94 | Such a listing holds every selected entry, nothing else, and each id once. |
| UserController.CreateUser | src/controllers/userController.ts:8-62 | Validation errors are returned as they are. The user is created exactly when validation passes and no user has the e-mail; otherwise the store is unchanged. A taken e-mail is a 400 with the single `email` detail "Email already exists". A created user is active and carries the given name, e-mail and region. Its hire date is the parsed `hire_date`, no later than now, and it starts its region now. At most one user per e-mail is preserved. |
| UserController.GetUsers | src/controllers/userController.ts:65-90 | For single-string query values, it returns exactly the stored users that match every non-empty filter. With no filter it returns all users; with a region outside the four it returns none. |
| UserController.UpdateUserRegion | src/controllers/userController.ts:135-192 | Guard order: malformed id ("Invalid user ID format"), then a bad region (both 400 with their single detail), then a missing user (404 "User not found" with the `id` detail). All three leave the store unchanged. On success, of the modelled fields only `region` and `current_region_start_date` (= now) change. E-mail uniqueness is preserved. |
| UserController.DeleteUser | src/controllers/userController.ts:195-238 | A malformed id is a 400 with the `id` detail "Invalid user ID format", and a missing user a 404 "User not found" with the `id` detail. Neither changes the store. Otherwise it is a soft delete answered with "User deactivated successfully": the user stays in the store, of the modelled fields only `status` changes (to inactive), and every other user is unchanged. |
| TargetsController.CreateTarget | src/controllers/targetsController.ts:9-78 | Guard order: validation errors (returned as they are), then the user lookup (a malformed user id is a 500, an unknown user a 400), then the duplicate (user, month, year), a 400 with the single `target` detail. Every rejection leaves the store unchanged. A success inserts exactly one target with the given fields. At most one target per (user, month, year) is preserved. |
| TargetsController.GetTargets | src/controllers/targetsController.ts:81-110 | A malformed user id is a 500 carrying the ObjectId cast message. Otherwise a NaN month or year is a 500 carrying the Number cast message. Both are the `catch` block's `Internal` response with the `server` detail. Otherwise, for single-string query values, it returns exactly the matching targets, each once, by year descending and then month descending. |
| TargetsController.UpdateTarget | src/controllers/targetsController.ts:158-211 | The id format ("Invalid target ID format") and then the amount (the `target_amount` detail "Target amount must be a positive number") are checked before any lookup, both as 400. A missing target is a 404 "Target not found" with the `id` detail. No rejection changes the store. On success, of the modelled fields only `target_amount` changes. The key invariant is preserved. |
| TargetsController.DeleteTarget | src/controllers/targetsController.ts:214-255 | A malformed id is a 400 with the `id` detail, and a missing target a 404 "Target not found" with the `id` detail; neither changes the store. Otherwise it removes exactly the identified target and answers "Target deleted successfully". The key invariant is preserved. |
| SalesController.DefaultRate | src/controllers/salesController.ts:50 | An absent rate and a rate of 0 both become 5, and any other accepted rate is kept. The stored rate lies in (0, 20]. |
| SalesController.CreateSale | src/controllers/salesController.ts:16-70 | Guard order: validation errors (returned as they are), then a malformed user id (500), then an unknown user (400). None of these inserts anything. A success inserts exactly one sale with the given user, amount, parsed date and category, and the rate defaulted as above. |
| SalesController.BulkImportSales | src/controllers/salesController.ts:72-125 | A body that is not an array is rejected. An array holding `null` makes validation throw, which is a 500. A batch where no item validates is rejected with every item's errors in index order. Otherwise exactly the valid items, in order, go to the processor, and the validation errors are returned next to its result. Neither a rejection nor the `null` case changes the store. |
| SalesController.BulkRejectedIffNoneValid | src/controllers/salesController.ts:87-97 | A batch is rejected before reaching the processor exactly when every item fails `validateSaleData`. An empty array is rejected too. |
| SalesController.GetSales | src/controllers/salesController.ts:127-162 | A date bound that does not parse is a 500 carrying the date cast message in the `catch` block's `server` detail. Otherwise, for single-string query values, it returns exactly the sales matching the exact user and category filters and the date range inclusive at both ends, each once, newest first. |
| SalesController.BoundsInclusive | src/controllers/salesController.ts:136-140 | A sale dated exactly on a start or end bound passes the date filter. |
| CommissionController.ParamErrors | src/controllers/commissionController.ts:16-31 | One error per failing parameter, in the order userId, month, year. The errors are exactly "User ID is required", "Month must be a number between 1 and 12" and "Year must be a number and 2020 or later". Empty exactly when userId is non-empty, the month parses into [1, 12] and the year parses to at least 2020. |
| CommissionController.ErrorOutcome | src/controllers/commissionController.ts:55-68 | An error with message "User not found" is a 404; every other error is a 500. Both carry the message as a `server` detail. |
| CommissionController.GetCommission | src/controllers/commissionController.ts:12-70 | All failing parameters are reported together, as the `ParamErrors` list, and the outcome then does not depend on the calculator. Otherwise the calculator's figure is returned. Its "User not found" is 404; any other failure is 500. |
| CommissionController.Collect | src/controllers/commissionController.ts:102-112 | The month loop lists successful months, each with its calculator figure, in strictly increasing month order and within range. |
| CommissionController.CollectComplete | src/controllers/commissionController.ts:102-106 | Every month whose calculation succeeds is in a successful loop's listing. |
| CommissionController.CollectFailure | src/controllers/commissionController.ts:106-111 | The loop fails exactly when some month fails with an error other than "User not found". It then fails with the first such month's error. |
| CommissionController.MonthlyCommissions | src/controllers/commissionController.ts:99-112 | There are at most 12 figures: every successful month's figure and nothing else, in the loop's order. Failure is characterised as above, with the first failing month's error. |
| CommissionController.MonthlyInMonthOrder | src/controllers/commissionController.ts:99-112 | The figures come one per successful month, in strictly increasing month order. Their months are exactly the months whose calculation succeeds. |
| CommissionController.TotalsSplit | src/controllers/commissionController.ts:115-117 | `yearlyTotal`, `yearlySales` and `monthsHitTarget` are additive over any split of the months. |
| CommissionController.HitCountOfOne | src/controllers/commissionController.ts:115-117 | One month contributes its own commission, its own sales, and 1 to `monthsHitTarget` exactly when its target was hit. |
| CommissionController.Summarize | src/controllers/commissionController.ts:114-127 | The summary carries the requested user id and year, and the monthly figures as given. `yearlyTotal`, `yearlySales` and `monthsHitTarget` are their sums and hit count, and `monthsHitTarget` ≤ the number of months. The average times the count is the yearly total. No months give an all-zero summary. |
| CommissionController.GetCommissionSummary | src/controllers/commissionController.ts:72-153 | An empty user id is rejected first, then a year that is NaN or below 2020 (the year defaults to the current one). It fails with 500 exactly when some month fails other than with "User not found". The 500 then carries the first such month's message, and the handler never answers 404. Otherwise the body is the summary of the monthly figures, with totals, hit count and average as `Summarize` states. |
| CommissionController.UnknownUserSummary | src/controllers/commissionController.ts:102-112 | A user unknown to the calculator in every month gets an empty, all-zero summary, not a 404. |

## Left out

- Validation.ValidateAmount: the source checks `Number(amount.toFixed(2)) === amount` on IEEE-754 doubles. The model idealises numbers as reals and this check as "a whole number of cents", so float rounding artefacts are not modelled.
- Numbers: every number in the model is an exact real, not an IEEE-754 double. That covers:
  - request numbers;
  - `amount × rate` and the commission totals;
  - the calculator's figures;
  - the yearly sums and the average `yearlyTotal / length`.

  So `ReduceIsRateTimesTotal`, `TotalSplits`, `TotalsSplit` and `Summarize`'s "average × count = total" hold for the real-number idealisation, not for double arithmetic with its rounding. NaN and the infinities are not modelled, nor is NaN slipping through the month and year range checks of `validateTargetData`.
- Validation.NameErrors: the length is counted in characters, not UTF-16 code units.
- Date parsing (`validateDate`, `new Date`), the clock, `new Date().getFullYear()` and `ObjectId.isValid` are supplied as parameters, not defined.
- The three-argument `calculateCommission(userId, month, year)` and `processBulkSales` are called by the controllers, but the commission service does not define them. They are parameters (`CommissionController.Engine`, `SalesController.BulkProcessor`). `CommissionCalculation` (src/types/index.ts:23-41) has tier bonus, regional multiplier, streak bonus, penalty and region transfer fields, but no code in the repository computes them. They are therefore carried as the calculator's output and not modelled.
- The controllers construct `CommissionService` with no rate. The model's commission service always has one; the rate is a field of an immutable `Service` value that no operation updates.
- The stored sale record follows the request shape (`user_id`, `product_category`, `commission_rate`). src/models/sales.ts declares a different schema (`userId`, `commission`), and the model does not reproduce what Mongoose would do with that mismatch.
- Store write failures (`save` throwing) and connection errors are not modelled. The 500s that are modelled are:
  - the cast errors of malformed ids, a NaN number filter or an unparsable date filter;
  - a calculator failure other than "User not found" (`CommissionController.ErrorOutcome`);
  - a `null` element in a bulk import, and a failure of the bulk processor (`SalesController.BulkImportSales`).
- SalesController.GetSales: the model takes the `user_id` filter as an exact string match on the stored sale's user id, with no ObjectId cast, so a malformed `user_id` filter is not a cast error.
- UserController.GetUsers, TargetsController.GetTargets, SalesController.GetSales: query values are taken as single strings. Express's query parser also yields arrays (`?region=a&region=b`, which Mongoose casts to `$in`) and objects (`?status[$ne]=active`, an operator). With those, the source returns records that do not equal the filter value, and the model does not cover this.
- UserController.GetUsers: the result is a map, because the query has no sort and the order is left to the store.
- getUserById, getTargetById and getSaleById: lookups with no decision logic beyond the id check; they are not part of this model.
- The `createdAt` and `updatedAt` timestamps are not part of the records. The `pre('save')` hooks (src/models/user.ts:35-38, src/models/targets.ts:35-38) also set `updatedAt` on every update, so "only these fields change" is about the modelled fields.
- Error messages: "Cast to ObjectId failed", "Cast to Number failed" and "Cast to date failed" are shortened forms of Mongoose's cast error messages, which also name the value and the path. "Cannot read properties of null (reading 'user_id')" is the V8 wording of the `TypeError`.
- Logging, `populate`, `select`, the `success` flag of response bodies and HTTP plumbing (routes, app start-up, database connection, authentication stub, seed data) are not modelled.
- Concurrency: the check-then-insert races of `createUser` and `createTarget` are not modelled; each handler is one atomic transition.

=== FILE: commission_controller.dfy ===
/**
 * The commission controller: parameter validation and error mapping around a
 * per-month commission calculator, and the yearly summary built from twelve
 * calls to it. The calculator is a parameter: the service the controller
 * calls does not define it, so its definition is not part of this model.
 */
module CommissionController {
  import opened Wrappers
  import opened Types
  import Validation

  /**
   * `calculateCommission(userId, month, year)`: the month's figure, or the
   * message of the error it throws.
   */
  type Engine = (string, int, int) -> Result<CommissionCalculation>

  const UserIdRequired: ValidationError := ValidationError("userId", "User ID is required")
  const BadMonth: ValidationError := ValidationError("month", "Month must be a number between 1 and 12")
  const BadYear: ValidationError := ValidationError("year", "Year must be a number and 2020 or later")

  /** `!month || isNaN(monthNum) || monthNum < 1 || monthNum > 12` does not hold. */
  predicate MonthInRange(month: QueryInt) {
    month.Parsed? && 1 <= month.value <= 12
  }

  /** `!year || isNaN(yearNum) || yearNum < 2020` does not hold. */
  predicate YearInRange(year: QueryInt) {
    year.Parsed? && year.value >= 2020
  }

  /** The parameter errors of `getCommission`: every failing parameter, in the order user, month, year. */
  function ParamErrors(userId: string, month: QueryInt, year: QueryInt): (r: seq<ValidationError>)
    ensures Validation.FieldsOf(r)
         == Validation.IfRejected(userId == [], "userId")
          + Validation.IfRejected(!MonthInRange(month), "month")
          + Validation.IfRejected(!YearInRange(year), "year")
    ensures r == [] <==> userId != [] && MonthInRange(month) && YearInRange(year)
    ensures forall k :: 0 <= k < |r| ==> r[k] in [UserIdRequired, BadMonth, BadYear]
  {
    var a := if userId == [] then [UserIdRequired] else [];
    var b := if MonthInRange(month) then [] else [BadMonth];
    var c := if YearInRange(year) then [] else [BadYear];
    Validation.FieldsOfAppend(a, b);
    Validation.FieldsOfAppend(a + b, c);
    a + b + c
  }

  /** The `catch` block of both handlers: "User not found" is a 404, any other error a 500. */
  function ErrorOutcome<T>(message: string): (o: Outcome<T>)
    ensures o.StatusCode() == (if message == UserNotFound then 404 else 500)
    ensures o.details == [ValidationError("server", message)]
    ensures o.error == (if message == UserNotFound then UserNotFound else "Internal server error")
  {
    if message == UserNotFound then NotFound(UserNotFound, [ValidationError("server", message)])
    else Internal(message)
  }

  /**
   * `getCommission`: all parameter errors are reported together and the
   * calculator is consulted only when there are none.
   */
  function GetCommission(engine: Engine, userId: string, month: QueryInt, year: QueryInt)
    : (o: Outcome<CommissionCalculation>)
    ensures o.BadRequest? <==> !(userId != [] && MonthInRange(month) && YearInRange(year))
    ensures o.BadRequest? ==> o == BadRequest("Validation failed", ParamErrors(userId, month, year))
    ensures !o.BadRequest? ==>
      var result := engine(userId, month.value, year.value);
      && (result.Success? ==> o == Ok(result.value))
      && (result.Failure? ==> !o.Ok? && !o.Created? && o.details == [ValidationError("server", result.error)])
      && (o.NotFound? <==> result == Failure(UserNotFound))
      && (o.ServerError? <==> result.Failure? && result.error != UserNotFound)
  {
    var errs := ParamErrors(userId, month, year);
    if errs != [] then BadRequest("Validation failed", errs)
    else
      match engine(userId, month.value, year.value)
      case Success(c) => Ok(c)
      case Failure(message) => ErrorOutcome(message)
  }

  /** A month whose calculation fails with anything but "User not found", which aborts the summary. */
  predicate Fatal(engine: Engine, userId: string, year: int, month: int) {
    engine(userId, month, year).Failure? && engine(userId, month, year).error != UserNotFound
  }

  /** A month whose calculation succeeds. */
  predicate Computed(engine: Engine, userId: string, year: int, month: int) {
    engine(userId, month, year).Success?
  }

  /**
   * The summary's month loop from `lo` to 12: each month's figure tagged with
   * its month, skipping "User not found", stopping at the first other error.
   */
  function Collect(engine: Engine, userId: string, year: int, lo: int): (r: Result<seq<(int, CommissionCalculation)>>)
    requires 1 <= lo <= 13
    ensures r.Success? ==> |r.value| <= 13 - lo
    ensures r.Success? ==> forall k :: 0 <= k < |r.value| ==>
      lo <= r.value[k].0 <= 12 && engine(userId, r.value[k].0, year) == Success(r.value[k].1)
    ensures r.Success? ==> forall k, l :: 0 <= k < l < |r.value| ==> r.value[k].0 < r.value[l].0
    decreases 13 - lo
  {
    if lo == 13 then Success([])
    else
      var rest := Collect(engine, userId, year, lo + 1);
      match engine(userId, lo, year)
      case Failure(message) =>
        if message != UserNotFound then Failure(message)
        else rest
      case Success(c) =>
        if rest.Failure? then rest
        else
          var r := [(lo, c)] + rest.value;
          assert forall k :: 1 <= k < |r| ==> r[k] == rest.value[k - 1];
          Success(r)
  }

  /** Every month from `lo` on whose calculation succeeds is in a successful loop's listing. */
  lemma {:induction false} CollectComplete(engine: Engine, userId: string, year: int, lo: int, m: int)
    requires 1 <= lo <= m <= 12
    requires Computed(engine, userId, year, m)
    requires Collect(engine, userId, year, lo).Success?
    ensures exists k ::
      0 <= k < |Collect(engine, userId, year, lo).value| && Collect(engine, userId, year, lo).value[k].0 == m
    decreases 13 - lo
  {
    var r := Collect(engine, userId, year, lo);
    if m == lo {
      assert r.value[0].0 == m;
    } else {
      var rest := Collect(engine, userId, year, lo + 1);
      assert rest.Success?;
      CollectComplete(engine, userId, year, lo + 1, m);
      var k :| 0 <= k < |rest.value| && rest.value[k].0 == m;
      if Computed(engine, userId, year, lo) {
        assert r.value[k + 1].0 == m;
      } else {
        assert r.value[k].0 == m;
      }
    }
  }

  /**
   * The month loop fails exactly when some month from `lo` on fails with
   * anything but "User not found", and then with the error of the first such
   * month.
   */
  lemma {:induction false} CollectFailure(engine: Engine, userId: string, year: int, lo: int)
    requires 1 <= lo <= 13
    ensures Collect(engine, userId, year, lo).Failure? <==> exists m :: lo <= m <= 12 && Fatal(engine, userId, year, m)
    ensures Collect(engine, userId, year, lo).Failure? ==>
      exists m :: lo <= m <= 12 && FirstFatal(engine, userId, year, lo, m)
        && engine(userId, m, year) == Failure(Collect(engine, userId, year, lo).error)
    decreases 13 - lo
  {
    if lo < 13 {
      CollectFailure(engine, userId, year, lo + 1);
      if Fatal(engine, userId, year, lo) {
        assert FirstFatal(engine, userId, year, lo, lo);
      } else if Collect(engine, userId, year, lo).Failure? {
        var m :| lo + 1 <= m <= 12 && FirstFatal(engine, userId, year, lo + 1, m)
          && engine(userId, m, year) == Failure(Collect(engine, userId, year, lo + 1).error);
        assert FirstFatal(engine, userId, year, lo, m);
      }
    }
  }

  /** Month `m` is the first month from `lo` on whose failure aborts the loop. */
  predicate FirstFatal(engine: Engine, userId: string, year: int, lo: int, m: int) {
    Fatal(engine, userId, year, m) && forall p :: lo <= p < m ==> !Fatal(engine, userId, year, p)
  }

  /** The sum of the figures' `totalCommission`, added left to right. */
  function YearlyTotal(cs: seq<CommissionCalculation>): real {
    if cs == [] then 0.0 else YearlyTotal(cs[..|cs| - 1]) + cs[|cs| - 1].totalCommission
  }

  /** The sum of the figures' `totalSales`, added left to right. */
  function YearlySales(cs: seq<CommissionCalculation>): real {
    if cs == [] then 0.0 else YearlySales(cs[..|cs| - 1]) + cs[|cs| - 1].totalSales
  }

  /** The number of figures whose target was hit. */
  function HitCount(cs: seq<CommissionCalculation>): (n: nat)
    ensures n <= |cs|
  {
    if cs == [] then 0 else HitCount(cs[..|cs| - 1]) + (if cs[|cs| - 1].targetHit then 1 else 0)
  }

  /**
   * The yearly figures are additive: the figures of any split of the months
   * add up to those of the whole, so they do not depend on how the months are grouped.
   */
  lemma {:induction false} TotalsSplit(a: seq<CommissionCalculation>, b: seq<CommissionCalculation>)
    ensures YearlyTotal(a + b) == YearlyTotal(a) + YearlyTotal(b)
    ensures YearlySales(a + b) == YearlySales(a) + YearlySales(b)
    ensures HitCount(a + b) == HitCount(a) + HitCount(b)
    decreases |b|
  {
    if b == [] {
      assert a + b == a;
    } else {
      var c := a + b;
      assert c[..|c| - 1] == a + b[..|b| - 1];
      TotalsSplit(a, b[..|b| - 1]);
    }
  }

  /** A month whose target was hit counts once toward `monthsHitTarget`; any other month not at all. */
  lemma {:induction false} HitCountOfOne(c: CommissionCalculation)
    ensures HitCount([c]) == (if c.targetHit then 1 else 0)
    ensures YearlyTotal([c]) == c.totalCommission
    ensures YearlySales([c]) == c.totalSales
  {
    assert [c][..0] == [];
  }

  datatype Summary = Summary(
    userId: string, year: int, monthlyCommissions: seq<CommissionCalculation>,
    yearlyTotal: real, yearlySales: real, monthsHitTarget: nat, averageMonthlyCommission: real)

  /** The summary of the figures of one year. */
  function Summarize(userId: string, year: int, cs: seq<CommissionCalculation>): (s: Summary)
    ensures s.userId == userId && s.year == year
    ensures s.monthlyCommissions == cs
    ensures s.yearlyTotal == YearlyTotal(cs) && s.yearlySales == YearlySales(cs)
    ensures s.monthsHitTarget == HitCount(cs) <= |cs|
    ensures cs == [] ==> s == Summary(userId, year, [], 0.0, 0.0, 0, 0.0)
    ensures cs != [] ==> s.averageMonthlyCommission * (|cs| as real) == s.yearlyTotal
  {
    var total := YearlyTotal(cs);
    Summary(userId, year, cs, total, YearlySales(cs), HitCount(cs),
      if |cs| > 0 then total / (|cs| as real) else 0.0)
  }

  /** The figures of a tagged listing, without their months. */
  function Figures(tagged: seq<(int, CommissionCalculation)>): (cs: seq<CommissionCalculation>)
    ensures |cs| == |tagged|
    ensures forall k :: 0 <= k < |cs| ==> cs[k] == tagged[k].1
  {
    seq(|tagged|, k requires 0 <= k < |tagged| => tagged[k].1)
  }

  /** The months of a tagged listing, without their figures. */
  function Months(tagged: seq<(int, CommissionCalculation)>): (ms: seq<int>)
    ensures |ms| == |tagged|
    ensures forall k :: 0 <= k < |ms| ==> ms[k] == tagged[k].0
  {
    seq(|tagged|, k requires 0 <= k < |tagged| => tagged[k].0)
  }

  /** The year `getCommissionSummary` uses: the query's, or the current year when the query has none. */
  function SummaryYear(currentYear: int, year: QueryInt): QueryInt {
    if year.Missing? then Parsed(currentYear) else year
  }

  /**
   * The figures of the twelve months of `year` in month order, skipping the
   * months that fail with "User not found"; the error of the first month that
   * fails otherwise.
   */
  function MonthlyCommissions(engine: Engine, userId: string, year: int): (r: Result<seq<CommissionCalculation>>)
    ensures r.Failure? <==> exists m :: 1 <= m <= 12 && Fatal(engine, userId, year, m)
    ensures r.Failure? ==>
      exists m :: 1 <= m <= 12 && FirstFatal(engine, userId, year, 1, m) && engine(userId, m, year) == Failure(r.error)
    ensures r.Success? ==> |r.value| <= 12
    ensures r.Success? ==>
      Collect(engine, userId, year, 1).Success? && r.value == Figures(Collect(engine, userId, year, 1).value)
    ensures r.Success? ==> forall m :: 1 <= m <= 12 && Computed(engine, userId, year, m) ==>
      engine(userId, m, year).value in r.value
    ensures r.Success? ==> forall c :: c in r.value ==>
      exists m :: 1 <= m <= 12 && engine(userId, m, year) == Success(c)
  {
    CollectFailure(engine, userId, year, 1);
    match Collect(engine, userId, year, 1)
    case Failure(message) => Failure(message)
    case Success(tagged) =>
      var cs := Figures(tagged);
      assert forall m :: 1 <= m <= 12 && Computed(engine, userId, year, m) ==> engine(userId, m, year).value in cs by {
        forall m | 1 <= m <= 12 && Computed(engine, userId, year, m) ensures engine(userId, m, year).value in cs {
          CollectComplete(engine, userId, year, 1, m);
          var k :| 0 <= k < |tagged| && tagged[k].0 == m;
          assert cs[k] == engine(userId, m, year).value;
        }
      }
      assert forall c :: c in cs ==> exists m :: 1 <= m <= 12 && engine(userId, m, year) == Success(c) by {
        forall c | c in cs ensures exists m :: 1 <= m <= 12 && engine(userId, m, year) == Success(c) {
          var k :| 0 <= k < |cs| && cs[k] == c;
          assert engine(userId, tagged[k].0, year) == Success(c);
        }
      }
      Success(cs)
  }

  /**
   * The figures of a successful summary loop come in month order, one per
   * month: the months they belong to strictly increase, and they are exactly
   * the months whose calculation succeeds.
   */
  lemma MonthlyInMonthOrder(engine: Engine, userId: string, year: int) returns (months: seq<int>)
    requires MonthlyCommissions(engine, userId, year).Success?
    ensures |months| == |MonthlyCommissions(engine, userId, year).value|
    ensures forall k :: 0 <= k < |months| ==>
      1 <= months[k] <= 12 && engine(userId, months[k], year) == Success(MonthlyCommissions(engine, userId, year).value[k])
    ensures forall k, l :: 0 <= k < l < |months| ==> months[k] < months[l]
    ensures forall m :: 1 <= m <= 12 ==> (m in months <==> Computed(engine, userId, year, m))
  {
    var tagged := Collect(engine, userId, year, 1).value;
    months := Months(tagged);
    forall m | 1 <= m <= 12 && Computed(engine, userId, year, m) ensures m in months {
      CollectComplete(engine, userId, year, 1, m);
      var k :| 0 <= k < |tagged| && tagged[k].0 == m;
      assert months[k] == m;
    }
  }

  /**
   * `getCommissionSummary`: the user id, then the year (defaulting to
   * `currentYear`), then the twelve months in order. The inner `catch`
   * swallows every "User not found", so the outer one never answers 404.
   */
  function GetCommissionSummary(engine: Engine, currentYear: int, userId: string, year: QueryInt)
    : (o: Outcome<Summary>)
    ensures userId == [] ==> o == BadRequest("Validation failed", [UserIdRequired])
    ensures userId != [] && !YearInRange(SummaryYear(currentYear, year)) ==>
      o == BadRequest("Validation failed", [BadYear])
    ensures o.BadRequest? <==> userId == [] || !YearInRange(SummaryYear(currentYear, year))
    ensures !o.NotFound? && !o.Created?
    ensures o.ServerError? <==>
      && !o.BadRequest?
      && exists m :: 1 <= m <= 12 && Fatal(engine, userId, SummaryYear(currentYear, year).value, m)
    ensures o.Ok? ==>
      var y := SummaryYear(currentYear, year).value;
      && MonthlyCommissions(engine, userId, y).Success?
      && o.value.userId == userId
      && o.value.year == y
      && o.value == Summarize(userId, y, MonthlyCommissions(engine, userId, y).value)
      && o.value.monthlyCommissions == MonthlyCommissions(engine, userId, y).value
      && |o.value.monthlyCommissions| <= 12
      && o.value.monthsHitTarget <= |o.value.monthlyCommissions|
    ensures o.ServerError? ==>
      var y := SummaryYear(currentYear, year).value;
      MonthlyCommissions(engine, userId, y).Failure? && o == ErrorOutcome(MonthlyCommissions(engine, userId, y).error)
  {
    if userId == [] then BadRequest("Validation failed", [UserIdRequired])
    else
      var y := SummaryYear(currentYear, year);
      if !YearInRange(y) then BadRequest("Validation failed", [BadYear])
      else
        match MonthlyCommissions(engine, userId, y.value)
        case Failure(message) => ErrorOutcome(message)
        case Success(cs) => Ok(Summarize(userId, y.value, cs))
  }

  /**
   * A user the calculator does not know is not a 404 for the summary: every
   * month is skipped and the summary is empty.
   */
  lemma {:induction false} UnknownUserSummary(engine: Engine, currentYear: int, userId: string, year: QueryInt)
    requires userId != [] && YearInRange(SummaryYear(currentYear, year))
    requires forall m :: 1 <= m <= 12 ==> engine(userId, m, SummaryYear(currentYear, year).value) == Failure(UserNotFound)
    ensures GetCommissionSummary(engine, currentYear, userId, year)
         == Ok(Summary(userId, SummaryYear(currentYear, year).value, [], 0.0, 0.0, 0, 0.0))
  {
    var y := SummaryYear(currentYear, year).value;
    var r := Collect(engine, userId, y, 1);
    CollectFailure(engine, userId, y, 1);
    assert r.Success?;
    assert Figures(r.value) == [];
  }
}

=== FILE: commission_service.dfy ===
/**
 * The commission service: a rate fixed at construction, the commission of one
 * sale, and the total over a list of sales. A missing argument, which the
 * service reports by throwing, is a `Failure`.
 */
module CommissionService {
  import opened Wrappers
  import opened Types

  const MissingSaleOrUser: string := "Sale and User must be provided"
  const MissingSalesOrUser: string := "Sales and User must be provided"

  /** The service: only its rate, which no operation changes. */
  datatype Service = Service(commissionRate: real)

  /** No element of the list is missing (`null` or `undefined`). */
  predicate AllPresent(sales: seq<Option<Sale>>) {
    forall i :: 0 <= i < |sales| ==> sales[i].Some?
  }

  /** The sum of the amounts of a list with no missing element. */
  function TotalAmount(sales: seq<Option<Sale>>): real
    requires AllPresent(sales)
  {
    if sales == [] then 0.0 else sales[0].value.amount + TotalAmount(sales[1..])
  }

  /** `calculateCommission(sale, user)`: the sale's amount times the rate. */
  function CalculateCommission(svc: Service, sale: Option<Sale>, user: Option<User>): (r: Result<real>)
    ensures r.Failure? <==> sale.None? || user.None?
    ensures r.Failure? ==> r.error == MissingSaleOrUser
    ensures r.Success? ==> r.value == sale.value.amount * svc.commissionRate
  {
    if sale.None? || user.None? then Failure(MissingSaleOrUser)
    else Success(sale.value.amount * svc.commissionRate)
  }

  /**
   * The `reduce` of `calculateTotalCommission`: `acc` plus each sale's
   * commission, left to right; the first missing sale makes
   * `calculateCommission` throw, which ends the fold.
   */
  function Reduce(svc: Service, acc: real, sales: seq<Option<Sale>>, user: User): Result<real>
    decreases |sales|
  {
    if sales == [] then Success(acc)
    else
      var c := CalculateCommission(svc, sales[0], Some(user));
      if c.Failure? then Failure(c.error) else Reduce(svc, acc + c.value, sales[1..], user)
  }

  /** The guard of `calculateTotalCommission`: the list or the user is missing, or the list is empty. */
  predicate MissingArgument(sales: Option<seq<Option<Sale>>>, user: Option<User>) {
    sales.None? || sales.value == [] || user.None?
  }

  /**
   * `calculateTotalCommission(sales, user)`; `sales` is `None` when the
   * argument is missing, and an element is `None` when it is `null` or
   * `undefined`.
   */
  function CalculateTotalCommission(svc: Service, sales: Option<seq<Option<Sale>>>, user: Option<User>)
    : (r: Result<real>)
    ensures r.Failure? <==> MissingArgument(sales, user) || !AllPresent(sales.value)
    ensures MissingArgument(sales, user) ==> r == Failure(MissingSalesOrUser)
    ensures !MissingArgument(sales, user) && !AllPresent(sales.value) ==> r == Failure(MissingSaleOrUser)
    ensures r.Success? ==> AllPresent(sales.value) && r.value == svc.commissionRate * TotalAmount(sales.value)
  {
    if MissingArgument(sales, user) then Failure(MissingSalesOrUser)
    else
      ReduceIsRateTimesTotal(svc, 0.0, sales.value, user.value);
      Reduce(svc, 0.0, sales.value, user.value)
  }

  /**
   * The left fold fails exactly when some sale is missing, with
   * `calculateCommission`'s message; otherwise it adds the rate times the
   * total amount to its seed.
   */
  lemma ReduceIsRateTimesTotal(svc: Service, acc: real, sales: seq<Option<Sale>>, user: User)
    ensures Reduce(svc, acc, sales, user).Failure? <==> !AllPresent(sales)
    ensures Reduce(svc, acc, sales, user).Failure? ==> Reduce(svc, acc, sales, user).error == MissingSaleOrUser
    ensures AllPresent(sales) ==> Reduce(svc, acc, sales, user) == Success(acc + svc.commissionRate * TotalAmount(sales))
  {
    if AllPresent(sales) {
      ReducePresent(svc, acc, sales, user);
      CommissionsAreRateTimesTotal(svc, sales);
    } else {
      ReduceMissing(svc, acc, sales, user);
    }
  }

  /** The per-sale commissions of a list with no missing element, added up. */
  function Commissions(svc: Service, sales: seq<Option<Sale>>): real
    requires AllPresent(sales)
  {
    if sales == [] then 0.0 else sales[0].value.amount * svc.commissionRate + Commissions(svc, sales[1..])
  }

  lemma {:induction false} ReducePresent(svc: Service, acc: real, sales: seq<Option<Sale>>, user: User)
    requires AllPresent(sales)
    ensures Reduce(svc, acc, sales, user) == Success(acc + Commissions(svc, sales))
    decreases |sales|
  {
    if sales != [] {
      var rest := sales[1..];
      assert AllPresent(rest) by {
        assert forall i :: 0 <= i < |rest| ==> rest[i] == sales[i + 1];
      }
      var c := sales[0].value.amount * svc.commissionRate;
      assert sales[0].Some?;
      assert CalculateCommission(svc, sales[0], Some(user)).value == c;
      ReducePresent(svc, acc + c, rest, user);
      assert Reduce(svc, acc, sales, user) == Reduce(svc, acc + c, rest, user);
      assert Commissions(svc, sales) == c + Commissions(svc, rest);
      assert acc + c + Commissions(svc, rest) == acc + Commissions(svc, sales);
    }
  }

  /** The added commissions are the rate times the total amount. */
  lemma {:induction false} CommissionsAreRateTimesTotal(svc: Service, sales: seq<Option<Sale>>)
    requires AllPresent(sales)
    ensures Commissions(svc, sales) == svc.commissionRate * TotalAmount(sales)
    decreases |sales|
  {
    if sales != [] {
      var rest := sales[1..];
      assert AllPresent(rest) by {
        assert forall i :: 0 <= i < |rest| ==> rest[i] == sales[i + 1];
      }
      CommissionsAreRateTimesTotal(svc, rest);
      var rate, first, tail := svc.commissionRate, sales[0].value.amount, TotalAmount(rest);
      assert rate * (first + tail) == first * rate + rate * tail;
    }
  }

  lemma {:induction false} ReduceMissing(svc: Service, acc: real, sales: seq<Option<Sale>>, user: User)
    requires !AllPresent(sales)
    ensures Reduce(svc, acc, sales, user) == Failure(MissingSaleOrUser)
    decreases |sales|
  {
    var rest := sales[1..];
    if sales[0].Some? {
      assert !AllPresent(rest) by {
        var i :| 0 <= i < |sales| && sales[i].None?;
        assert rest[i - 1] == sales[i];
      }
      var c := CalculateCommission(svc, sales[0], Some(user));
      ReduceMissing(svc, acc + c.value, rest, user);
    }
  }

  /** For a single sale, the total is that sale's commission. */
  lemma TotalOfOneSale(svc: Service, sale: Sale, user: User)
    ensures CalculateTotalCommission(svc, Some([Some(sale)]), Some(user))
         == CalculateCommission(svc, Some(sale), Some(user))
  {
    assert [Some(sale)][1..] == [];
    assert AllPresent([Some(sale)]);
    assert TotalAmount([Some(sale)]) == sale.amount;
    var total := CalculateTotalCommission(svc, Some([Some(sale)]), Some(user));
    assert total.Success? && total.value == svc.commissionRate * sale.amount;
    assert svc.commissionRate * sale.amount == sale.amount * svc.commissionRate;
    var one := CalculateCommission(svc, Some(sale), Some(user));
    assert one.Success?;
    assert one.value == sale.amount * svc.commissionRate;
    assert total == one;
  }

  /** The total over a list of sales is the total of its first part plus that of the rest. */
  lemma {:induction false} TotalSplits(svc: Service, a: seq<Option<Sale>>, b: seq<Option<Sale>>, user: User)
    requires a != [] && b != []
    requires AllPresent(a) && AllPresent(b)
    ensures CalculateTotalCommission(svc, Some(a + b), Some(user)).Success?
    ensures CalculateTotalCommission(svc, Some(a + b), Some(user)).value
         == CalculateTotalCommission(svc, Some(a), Some(user)).value
          + CalculateTotalCommission(svc, Some(b), Some(user)).value
  {
    TotalAmountAppend(a, b);
    var rate := svc.commissionRate;
    assert rate * (TotalAmount(a) + TotalAmount(b)) == rate * TotalAmount(a) + rate * TotalAmount(b);
  }

  lemma {:induction false} TotalAmountAppend(a: seq<Option<Sale>>, b: seq<Option<Sale>>)
    requires AllPresent(a) && AllPresent(b)
    ensures AllPresent(a + b)
    ensures TotalAmount(a + b) == TotalAmount(a) + TotalAmount(b)
  {
    if a == [] {
      assert a + b == b;
    } else {
      assert (a + b)[1..] == a[1..] + b;
      assert AllPresent(a[1..]) by {
        assert forall i :: 0 <= i < |a[1..]| ==> a[1..][i] == a[i + 1];
      }
      TotalAmountAppend(a[1..], b);
    }
  }

  /** A list holding a missing sale fails with the per-sale message, wherever the gap is. */
  lemma MissingSaleFails(svc: Service, a: seq<Option<Sale>>, b: seq<Option<Sale>>, user: User)
    ensures CalculateTotalCommission(svc, Some(a + [None] + b), Some(user)) == Failure(MissingSaleOrUser)
  {
    var sales := a + [None] + b;
    assert sales[|a|] == None;
  }
}

=== FILE: email.dfy ===
/**
 * The e-mail check of the validation service: the regular expression
 * `^[^\s@]+@[^\s@]+\.[^\s@]+$`, run as a deterministic automaton, and proved
 * equal to the decomposition "local@domain.suffix" with three non-empty parts
 * free of whitespace and '@'.
 */
module Email {

  /** The characters ECMAScript's `\s` class matches. */
  predicate IsWhitespace(c: char) {
    || c == ' ' || c == '\t' || c == '\n' || c == '\U{000B}' || c == '\U{000C}' || c == '\r'
    || c == '\U{00A0}' || c == '\U{1680}' || ('\U{2000}' <= c <= '\U{200A}')
    || c == '\U{2028}' || c == '\U{2029}' || c == '\U{202F}' || c == '\U{205F}'
    || c == '\U{3000}' || c == '\U{FEFF}'
  }

  /** A character of the class `[^\s@]`. Note that '.' is one. */
  predicate Plain(c: char) {
    !IsWhitespace(c) && c != '@'
  }

  /** Every character of `s[lo..hi]` is in `[^\s@]`. */
  ghost predicate PlainRange(s: string, lo: int, hi: int)
    requires 0 <= lo && hi <= |s|
  {
    forall i :: lo <= i < hi ==> Plain(s[i])
  }

  /**
   * `s` is `L + "@" + A + "." + B` with `L`, `A`, `B` non-empty and made of
   * `[^\s@]` characters (so `A` and `B` may themselves contain dots).
   */
  ghost predicate Shape(s: string) {
    exists a, d ::
      && 0 < a && a + 1 < d < |s| - 1
      && s[a] == '@' && s[d] == '.'
      && PlainRange(s, 0, a) && PlainRange(s, a + 1, d) && PlainRange(s, d + 1, |s|)
  }

  /** The automaton's states: what part of the pattern the input read so far has completed. */
  datatype State =
    | Start      // nothing read
    | Local      // one or more local-part characters
    | AfterAt    // the '@' was just read
    | Domain     // at least one domain character, no usable '.' yet
    | Dot        // a '.' preceded by a domain character was just read
    | Accept     // the whole pattern has matched
    | Reject

  function Step(st: State, c: char): State {
    if !Plain(c) then
      if st == Local && c == '@' then AfterAt else Reject
    else
      match st
      case Start => Local
      case Local => Local
      case AfterAt => Domain
      case Domain => if c == '.' then Dot else Domain
      case Dot => Accept
      case Accept => Accept
      case Reject => Reject
  }

  /** The state reached from `st` after reading `s[k..]`. */
  function Run(st: State, s: string, k: nat): State
    requires k <= |s|
    decreases |s| - k
  {
    if k == |s| then st else Run(Step(st, s[k]), s, k + 1)
  }

  /** `validateEmail`: the regular expression accepts the whole of `s`. */
  function ValidateEmail(s: string): (ok: bool)
    ensures ok <==> Shape(s)
  {
    StartAccepts(s);
    ShapeIffStart(s);
    Run(Start, s, 0) == Accept
  }

  /** A '.' at some position `d` with `lo <= d` and at least one character after it. */
  ghost predicate SeparatorFrom(s: string, lo: int)
    requires 0 <= lo
  {
    exists d :: lo <= d < |s| - 1 && s[d] == '.'
  }

  /** What the automaton must still read after an '@' that ends at `j`. */
  ghost predicate DomainOk(s: string, j: nat)
    requires j <= |s|
  {
    j < |s| && PlainRange(s, j, |s|) && SeparatorFrom(s, j + 1)
  }

  /** What the automaton must still read, in state `Local`, from position `k`. */
  ghost predicate LocalOk(s: string, k: nat)
    requires k <= |s|
  {
    exists a :: k <= a < |s| && s[a] == '@' && PlainRange(s, k, a) && DomainOk(s, a + 1)
  }

  lemma {:induction false} RejectSticks(s: string, k: nat)
    requires k <= |s|
    ensures Run(Reject, s, k) == Reject
    decreases |s| - k
  {
    if k < |s| {
      RejectSticks(s, k + 1);
    }
  }

  lemma {:induction false} AcceptAccepts(s: string, k: nat)
    requires k <= |s|
    ensures Run(Accept, s, k) == Accept <==> PlainRange(s, k, |s|)
    decreases |s| - k
  {
    if k < |s| {
      if Plain(s[k]) {
        AcceptAccepts(s, k + 1);
      } else {
        RejectSticks(s, k + 1);
      }
    }
  }

  lemma DotAccepts(s: string, k: nat)
    requires k <= |s|
    ensures Run(Dot, s, k) == Accept <==> k < |s| && PlainRange(s, k, |s|)
  {
    if k < |s| {
      if Plain(s[k]) {
        AcceptAccepts(s, k + 1);
      } else {
        RejectSticks(s, k + 1);
      }
    }
  }

  lemma {:induction false} DomainAccepts(s: string, k: nat)
    requires k <= |s|
    ensures Run(Domain, s, k) == Accept <==> PlainRange(s, k, |s|) && SeparatorFrom(s, k)
    decreases |s| - k
  {
    if k < |s| {
      if !Plain(s[k]) {
        RejectSticks(s, k + 1);
      } else if s[k] == '.' {
        DotAccepts(s, k + 1);
        if k + 1 < |s| {
          assert SeparatorFrom(s, k) by { assert s[k] == '.'; }
        }
      } else {
        DomainAccepts(s, k + 1);
        if SeparatorFrom(s, k) {
          var d :| k <= d < |s| - 1 && s[d] == '.';
          assert d != k;
        }
      }
    }
  }

  lemma AfterAtAccepts(s: string, k: nat)
    requires k <= |s|
    ensures Run(AfterAt, s, k) == Accept <==> DomainOk(s, k)
  {
    if k < |s| {
      if Plain(s[k]) {
        DomainAccepts(s, k + 1);
      } else {
        RejectSticks(s, k + 1);
      }
    }
  }

  lemma {:induction false} LocalAccepts(s: string, k: nat)
    requires k <= |s|
    ensures Run(Local, s, k) == Accept <==> LocalOk(s, k)
    decreases |s| - k
  {
    if k < |s| {
      if s[k] == '@' {
        AfterAtAccepts(s, k + 1);
        if DomainOk(s, k + 1) {
          assert PlainRange(s, k, k);
        }
      } else if !Plain(s[k]) {
        RejectSticks(s, k + 1);
      } else {
        LocalAccepts(s, k + 1);
        if LocalOk(s, k) {
          var a :| k <= a < |s| && s[a] == '@' && PlainRange(s, k, a) && DomainOk(s, a + 1);
          assert a != k;
          assert PlainRange(s, k + 1, a);
        }
        if LocalOk(s, k + 1) {
          var a :| k + 1 <= a < |s| && s[a] == '@' && PlainRange(s, k + 1, a) && DomainOk(s, a + 1);
          assert PlainRange(s, k, a);
        }
      }
    }
  }

  lemma StartAccepts(s: string)
    ensures Run(Start, s, 0) == Accept <==> 0 < |s| && Plain(s[0]) && LocalOk(s, 1)
  {
    if 0 < |s| {
      if Plain(s[0]) {
        LocalAccepts(s, 1);
      } else {
        RejectSticks(s, 1);
      }
    }
  }

  lemma ShapeIffStart(s: string)
    ensures Shape(s) <==> 0 < |s| && Plain(s[0]) && LocalOk(s, 1)
  {
    if Shape(s) {
      var a, d :|
        && 0 < a && a + 1 < d < |s| - 1
        && s[a] == '@' && s[d] == '.'
        && PlainRange(s, 0, a) && PlainRange(s, a + 1, d) && PlainRange(s, d + 1, |s|);
      assert Plain(s[0]);
      assert PlainRange(s, a + 1, |s|) by {
        forall i | a + 1 <= i < |s| ensures Plain(s[i]) {
          if i > d { assert d + 1 <= i; }
        }
      }
      assert SeparatorFrom(s, a + 2);
      assert DomainOk(s, a + 1);
      assert PlainRange(s, 1, a);
      assert LocalOk(s, 1);
    }
    if 0 < |s| && Plain(s[0]) && LocalOk(s, 1) {
      var a :| 1 <= a < |s| && s[a] == '@' && PlainRange(s, 1, a) && DomainOk(s, a + 1);
      var d :| a + 2 <= d < |s| - 1 && s[d] == '.';
      assert PlainRange(s, 0, a);
      assert PlainRange(s, a + 1, d);
      assert PlainRange(s, d + 1, |s|);
    }
  }
}

=== FILE: sales_controller.dfy ===
/**
 * The sales controller, with the sale collection as a finite map from id to
 * record. Each handler is a transition from the store and the request to the
 * new store and the response. The bulk processor the controller hands the
 * validated batch to is a parameter: its definition is not part of this model.
 */
module SalesController {
  import opened Wrappers
  import opened Types
  import Validation
  import Sorting

  const DefaultCommissionRate: real := 5.0

  /** The message of the error a query with an unparsable date bound throws. */
  const DateCastMessage: string := "Cast to date failed"

  /**
   * `commission_rate || 5`. Any falsy rate becomes 5, so a rate of 0, which
   * validation accepts, is stored as 5 just like an absent one.
   */
  function DefaultRate(v: JsValue): (rate: real)
    requires Validation.RateAccepted(v)
    ensures v.Undefined? || v == Num(0.0) ==> rate == DefaultCommissionRate
    ensures v.Num? && v.n != 0.0 ==> rate == v.n
    ensures 0.0 < rate <= 20.0
  {
    if Falsy(v) then DefaultCommissionRate else v.n
  }

  /** The record `createSale` builds from a validated request. */
  function NewSale(env: Env, req: SaleRequest): Sale
    requires Validation.ValidateSaleData(env, req) == []
  {
    Sale(req.userId.s, req.amount.n, env.parseDate(req.date.s).value,
      CategoryOf(req.productCategory).value, DefaultRate(req.commissionRate))
  }

  /**
   * `createSale`: validation, then the user lookup (a malformed user id makes
   * the lookup throw), then the insertion.
   */
  function CreateSale(env: Env, users: Users, sales: Sales, req: SaleRequest, newId: Id)
    : (t: Transition<Sales, Sale>)
    requires newId !in sales
    ensures Validation.ValidateSaleData(env, req) != [] ==>
      t == Transition(sales, BadRequest("Validation failed", Validation.ValidateSaleData(env, req)))
    ensures Validation.ValidateSaleData(env, req) == [] && !env.isValidId(req.userId.s) ==>
      t == Transition(sales, Internal(CastErrorMessage))
    ensures Validation.ValidateSaleData(env, req) == [] && env.isValidId(req.userId.s) && req.userId.s !in users ==>
      t == Transition(sales, Invalid("user_id", UserNotFound))
    ensures t.outcome.Created? <==>
      Validation.ValidateSaleData(env, req) == [] && env.isValidId(req.userId.s) && req.userId.s in users
    ensures !t.outcome.Created? ==> t.store == sales
    ensures t.outcome.Created? ==>
      && t.store == sales[newId := t.outcome.value]
      && |t.store| == |sales| + 1
      && t.outcome.value.userId == req.userId.s
      && t.outcome.value.amount == req.amount.n > 0.0
      && env.parseDate(req.date.s) == Some(t.outcome.value.date)
      && t.outcome.value.date <= env.oneYearAhead
      && CategoryName(t.outcome.value.productCategory) == req.productCategory.s
      && (Falsy(req.commissionRate) ==> t.outcome.value.commissionRate == DefaultCommissionRate)
      && (!Falsy(req.commissionRate) ==> t.outcome.value.commissionRate == req.commissionRate.n)
  {
    var errs := Validation.ValidateSaleData(env, req);
    if errs != [] then Transition(sales, BadRequest("Validation failed", errs))
    else if !env.isValidId(req.userId.s) then Transition(sales, Internal(CastErrorMessage))
    else if req.userId.s !in users then
      Transition(sales, Invalid("user_id", UserNotFound))
    else
      var sale := NewSale(env, req);
      Transition(sales[newId := sale], Created(sale))
  }

  /**
   * A request body: anything but an array; an array with a `null` element,
   * whose `user_id` the validator reads and so throws on (a JSON body holds no
   * `undefined`); or an array of sale requests, where any other non-object
   * element reads as a request whose fields are all undefined.
   */
  datatype BulkBody = NotAnArray | HoldsNull | Items(items: seq<SaleRequest>)

  /** A per-item failure the bulk processor reports. */
  datatype ItemError = ItemError(index: int, error: string)

  /** What the bulk processor returns: the number of sales written and the per-item failures. */
  datatype BulkResult = BulkResult(success: int, errors: seq<ItemError>)

  /** The body of a successful bulk import. */
  datatype BulkReport = BulkReport(
    success: int, errors: seq<ItemError>, validationErrors: seq<Validation.IndexedErrors>)

  /**
   * `processBulkSales`: given the store and the validated batch, the store
   * after whatever it wrote and either its result or the message of the error
   * it threw.
   */
  type BulkProcessor = (Sales, seq<SaleRequest>) -> (Sales, Result<BulkResult>)

  const NotAnArrayError: ValidationError := ValidationError("body", "Request body must be an array")

  /** The message of the error reading a field of `null` throws. */
  const NullItemMessage: string := "Cannot read properties of null (reading 'user_id')"

  /**
   * `bulkImportSales`: a body that is not an array is rejected; a `null`
   * element makes validation throw, which the `catch` block answers with a
   * 500; a batch with no valid item is rejected with every item's errors;
   * otherwise exactly the
   * valid items go to the bulk processor and the validation errors come back
   * next to its result.
   */
  function BulkImportSales(env: Env, sales: Sales, body: BulkBody, process: BulkProcessor)
    : (t: Transition<Sales, BulkReport>)
    ensures body.NotAnArray? ==> t == Transition(sales, BadRequest("Validation failed", [NotAnArrayError]))
    ensures body.HoldsNull? ==> t == Transition(sales, Internal(NullItemMessage))
    ensures body.Items? && Validation.Passing(Validation.SaleCheck(env), body.items) == [] ==>
      t == Transition(sales,
        BadRequest("No valid sales data provided", Validation.AllErrors(Validation.SaleCheck(env), body.items)))
    ensures body.Items? && Validation.Passing(Validation.SaleCheck(env), body.items) != [] ==>
      var after := process(sales, Validation.Passing(Validation.SaleCheck(env), body.items));
      && t.store == after.0
      && (after.1.Success? ==>
            t.outcome == Ok(BulkReport(after.1.value.success, after.1.value.errors,
                                       Validation.ValidateBulkSalesData(env, body.items).errors)))
      && (after.1.Failure? ==> t.outcome == Internal(after.1.error))
    ensures t.outcome.BadRequest? || body.HoldsNull? ==> t.store == sales
  {
    match body
    case NotAnArray => Transition(sales, BadRequest("Validation failed", [NotAnArrayError]))
    case HoldsNull => Transition(sales, Internal(NullItemMessage))
    case Items(items) =>
      var r := Validation.ValidateBulkSalesData(env, items);
      if r.valid == [] then
        Validation.FlattenAllRejected(Validation.SaleCheck(env), items);
        Transition(sales, BadRequest("No valid sales data provided", Validation.Flatten(r.errors)))
      else
        var after := process(sales, r.valid);
        match after.1
        case Success(result) => Transition(after.0, Ok(BulkReport(result.success, result.errors, r.errors)))
        case Failure(message) => Transition(after.0, Internal(message))
  }

  /**
   * The bulk import gate: a batch is rejected without reaching the processor
   * exactly when every item of it fails `validateSaleData` (an empty array
   * included).
   */
  lemma BulkRejectedIffNoneValid(env: Env, sales: Sales, items: seq<SaleRequest>, process: BulkProcessor)
    ensures BulkImportSales(env, sales, Items(items), process).outcome.BadRequest?
        <==> forall i :: 0 <= i < |items| ==> Validation.ValidateSaleData(env, items[i]) != []
  {
    var check := Validation.SaleCheck(env);
    var t := BulkImportSales(env, sales, Items(items), process);
    assert t.outcome.BadRequest? <==> Validation.Passing(check, items) == [];
    Validation.NothingPassesIffAllRejected(check, items);
    assert Validation.Partition(check, items).valid == Validation.Passing(check, items);
    forall i | 0 <= i < |items| ensures check(items[i]) == Validation.ValidateSaleData(env, items[i]) {
    }
  }

  /** A date bound that is supplied but does not parse, which makes the query fail to cast. */
  predicate BadDate(env: Env, q: Option<string>) {
    Given(q) && env.parseDate(q.value).None?
  }

  /** The instant a supplied date bound stands for. */
  function Bound(env: Env, q: Option<string>): Option<Instant> {
    if Given(q) then env.parseDate(q.value) else None
  }

  /** A sale passes the filters `getSales` builds: exact user and category, dates inclusive at both ends. */
  predicate SaleMatches(s: Sale, user: Option<string>, category: Option<string>, from: Option<Instant>, to: Option<Instant>) {
    && (Given(user) ==> s.userId == user.value)
    && (Given(category) ==> CategoryName(s.productCategory) == category.value)
    && (from.Some? ==> from.value <= s.date)
    && (to.Some? ==> s.date <= to.value)
  }

  /** Listing order of `getSales`: date descending. */
  function ByDate(entry: (Id, Sale)): Sorting.SortKey {
    Sorting.SortKey(entry.1.date as real, 0.0)
  }

  /**
   * `getSales`. Each filter is the query value, `None` when absent; a date
   * bound that does not parse makes the query fail, which the handler reports
   * as a server error.
   */
  method GetSales(env: Env, sales: Sales, user: Option<string>, category: Option<string>,
                  startDate: Option<string>, endDate: Option<string>)
    returns (o: Outcome<seq<(Id, Sale)>>)
    ensures o.ServerError? <==> BadDate(env, startDate) || BadDate(env, endDate)
    ensures o.ServerError? ==> o == Internal(DateCastMessage)
    ensures !o.ServerError? ==> o.Ok?
    ensures o.Ok? ==> Sorting.Sorted(o.value, ByDate)
    ensures o.Ok? ==> forall i :: 0 <= i < |o.value| ==>
      o.value[i].0 in sales && o.value[i].1 == sales[o.value[i].0]
      && SaleMatches(o.value[i].1, user, category, Bound(env, startDate), Bound(env, endDate))
    ensures o.Ok? ==> forall id ::
      (id in sales && SaleMatches(sales[id], user, category, Bound(env, startDate), Bound(env, endDate))) ==>
      (id, sales[id]) in o.value
    ensures o.Ok? ==> forall i, j :: 0 <= i < j < |o.value| ==> o.value[i].0 != o.value[j].0
  {
    if BadDate(env, startDate) || BadDate(env, endDate) {
      return Internal(DateCastMessage);
    }
    var from, to := Bound(env, startDate), Bound(env, endDate);
    var keep := set id | id in sales && SaleMatches(sales[id], user, category, from, to);
    var listing := Sorting.SortEntries(sales, keep, ByDate);
    Sorting.ListingMembers(sales, keep, listing);
    return Ok(listing);
  }

  /** Both date bounds are inclusive: a sale dated exactly on either bound passes the date filter. */
  lemma BoundsInclusive(s: Sale, user: Option<string>, category: Option<string>)
    requires Given(user) ==> s.userId == user.value
    requires Given(category) ==> CategoryName(s.productCategory) == category.value
    ensures SaleMatches(s, user, category, Some(s.date), Some(s.date))
    ensures SaleMatches(s, user, category, Some(s.date), None)
    ensures SaleMatches(s, user, category, None, Some(s.date))
  {
  }
}

=== FILE: sorting.dfy ===
/**
 * Listing store records in the order a query's `sort` asks for: descending on
 * a two-part key (major first, then minor), built by insertion.
 */
module Sorting {

  /** A sort key compared lexicographically. */
  datatype SortKey = SortKey(major: real, minor: real)

  /** `a` may be listed before `b` when sorting by major, then minor, both descending. */
  predicate Before(a: SortKey, b: SortKey) {
    a.major > b.major || (a.major == b.major && a.minor >= b.minor)
  }

  ghost predicate Sorted<T>(s: seq<T>, key: T -> SortKey) {
    forall i, j :: 0 <= i < j < |s| ==> Before(key(s[i]), key(s[j]))
  }

  /** The entries of `m` whose keys are in `keep`. */
  ghost function Entries<K, V>(m: map<K, V>, keep: set<K>): set<(K, V)> {
    set k | k in keep && k in m :: (k, m[k])
  }

  /** Inserts `x` into the sorted `s`, before the first element it may precede. */
  function Insert<T(==)>(x: T, s: seq<T>, key: T -> SortKey): (r: seq<T>)
    requires Sorted(s, key)
    ensures Sorted(r, key)
    ensures multiset(r) == multiset(s) + multiset{x}
  {
    if s == [] then [x]
    else if Before(key(x), key(s[0])) then [x] + s
    else
      var rest := Insert(x, s[1..], key);
      assert s == [s[0]] + s[1..];
      assert forall j :: 0 <= j < |rest| ==> Before(key(s[0]), key(rest[j])) by {
        forall j | 0 <= j < |rest| ensures Before(key(s[0]), key(rest[j])) {
          assert rest[j] in multiset(rest);
          if rest[j] != x {
            assert rest[j] in multiset(s[1..]);
            var i :| 0 <= i < |s[1..]| && s[1..][i] == rest[j];
            assert s[i + 1] == rest[j];
          }
        }
      }
      [s[0]] + rest
  }

  lemma MultisetOfSetAdd<T>(a: set<T>, x: T)
    requires x !in a
    ensures multiset(a + {x}) == multiset(a) + multiset{x}
  {
  }

  lemma EntriesAdd<K, V>(m: map<K, V>, done: set<K>, k: K)
    requires k in m && k !in done
    ensures Entries(m, done + {k}) == Entries(m, done) + {(k, m[k])}
    ensures (k, m[k]) !in Entries(m, done)
  {
  }

  /** The entries of `m` with keys in `keep`, each once, in descending key order. */
  method SortEntries<K(==), V(==)>(m: map<K, V>, keep: set<K>, key: ((K, V)) -> SortKey)
    returns (r: seq<(K, V)>)
    requires keep <= m.Keys
    ensures Sorted(r, key)
    ensures multiset(r) == multiset(Entries(m, keep))
  {
    r := [];
    var rest := keep;
    while rest != {}
      invariant rest <= keep
      invariant Sorted(r, key)
      invariant multiset(r) == multiset(Entries(m, keep - rest))
      decreases rest
    {
      var k :| k in rest;
      EntriesAdd(m, keep - rest, k);
      MultisetOfSetAdd(Entries(m, keep - rest), (k, m[k]));
      assert keep - (rest - {k}) == (keep - rest) + {k};
      r := Insert((k, m[k]), r, key);
      rest := rest - {k};
    }
    assert keep - rest == keep;
  }

  /** What a listing with the multiset of `Entries(m, keep)` holds: those entries and nothing else. */
  lemma ListingMembers<K, V>(m: map<K, V>, keep: set<K>, r: seq<(K, V)>)
    requires multiset(r) == multiset(Entries(m, keep))
    ensures forall i :: 0 <= i < |r| ==> r[i].0 in keep && r[i].0 in m && r[i].1 == m[r[i].0]
    ensures forall k :: k in keep && k in m ==> (k, m[k]) in r
    ensures forall i, j :: 0 <= i < j < |r| ==> r[i].0 != r[j].0
  {
    forall i | 0 <= i < |r| ensures r[i].0 in keep && r[i].0 in m && r[i].1 == m[r[i].0] {
      assert r[i] in multiset(r);
    }
    forall k | k in keep && k in m ensures (k, m[k]) in r {
      assert (k, m[k]) in multiset(Entries(m, keep));
    }
    forall i, j | 0 <= i < j < |r| ensures r[i].0 != r[j].0 {
      assert r == r[..i] + [r[i]] + r[i + 1..j] + [r[j]] + r[j + 1..];
      assert multiset(r)[r[j]] >= multiset([r[i]])[r[j]] + 1;
      assert multiset(Entries(m, keep))[r[j]] <= 1;
    }
  }
}

=== FILE: targets_controller.dfy ===
/**
 * The targets controller, with the target collection as a finite map from id
 * to record. Each handler is a transition from the store and the request to
 * the new store and the response.
 */
module TargetsController {
  import opened Wrappers
  import opened Types
  import Validation
  import Sorting

  const CastNumberMessage: string := "Cast to Number failed"

  /** The fields the unique index of the target collection is on. */
  function KeyOf(t: Target): (Id, real, real) {
    (t.userId, t.month, t.year)
  }

  /** The store invariant: at most one target per (user, month, year). */
  ghost predicate OneTargetPerKey(targets: Targets) {
    forall a, b :: a in targets && b in targets && a != b ==> KeyOf(targets[a]) != KeyOf(targets[b])
  }

  /** `TargetModel.findOne({user_id, month, year})` finds a record. */
  predicate KeyTaken(targets: Targets, key: (Id, real, real)) {
    exists id | id in targets :: KeyOf(targets[id]) == key
  }

  const DuplicateTarget: string := "Target already exists for this user/month/year"
  const InvalidId: ValidationError := ValidationError("id", "Invalid target ID format")
  const NoSuchTarget: ValidationError := ValidationError("id", "Target with this ID does not exist")
  const TargetNotFound: string := "Target not found"
  const BadAmount: string := "Target amount must be a positive number"
  const Deleted: string := "Target deleted successfully"

  /** The record `createTarget` builds from a validated request. */
  function NewTarget(req: TargetRequest): Target
    requires Validation.ValidateTargetData(req) == []
  {
    Target(req.userId.s, req.month.n, req.year.n, req.targetAmount.n)
  }

  /**
   * `createTarget`: validation, then the user lookup (a malformed user id
   * makes the lookup throw), then the duplicate check, then the insertion.
   */
  function CreateTarget(env: Env, users: Users, targets: Targets, req: TargetRequest, newId: Id)
    : (t: Transition<Targets, Target>)
    requires newId !in targets
    ensures Validation.ValidateTargetData(req) != [] ==>
      t == Transition(targets, BadRequest("Validation failed", Validation.ValidateTargetData(req)))
    ensures Validation.ValidateTargetData(req) == [] && !env.isValidId(req.userId.s) ==>
      t == Transition(targets, Internal(CastErrorMessage))
    ensures Validation.ValidateTargetData(req) == [] && env.isValidId(req.userId.s) && req.userId.s !in users ==>
      t == Transition(targets, Invalid("user_id", UserNotFound))
    ensures && Validation.ValidateTargetData(req) == [] && env.isValidId(req.userId.s) && req.userId.s in users
            && KeyTaken(targets, KeyOf(NewTarget(req))) ==>
      t == Transition(targets, Invalid("target", DuplicateTarget))
    ensures t.outcome.Created? <==>
      && Validation.ValidateTargetData(req) == []
      && env.isValidId(req.userId.s)
      && req.userId.s in users
      && !KeyTaken(targets, KeyOf(NewTarget(req)))
    ensures !t.outcome.Created? ==> t.store == targets
    ensures t.outcome.Created? ==>
      && t.outcome.value.userId == req.userId.s
      && t.outcome.value.month == req.month.n
      && t.outcome.value.year == req.year.n
      && t.outcome.value.targetAmount == req.targetAmount.n
      && t.store == targets[newId := t.outcome.value]
      && |t.store| == |targets| + 1
    ensures OneTargetPerKey(targets) ==> OneTargetPerKey(t.store)
  {
    var errs := Validation.ValidateTargetData(req);
    if errs != [] then Transition(targets, BadRequest("Validation failed", errs))
    else
      var target := NewTarget(req);
      if !env.isValidId(target.userId) then Transition(targets, Internal(CastErrorMessage))
      else if target.userId !in users then Transition(targets, Invalid("user_id", UserNotFound))
      else if KeyTaken(targets, KeyOf(target)) then
        Transition(targets, Invalid("target", DuplicateTarget))
      else
        Transition(targets[newId := target], Created(target))
  }

  /** A target passes the filters `getTargets` builds from its query. */
  predicate TargetMatches(t: Target, user: Option<string>, month: QueryInt, year: QueryInt) {
    && (Given(user) ==> t.userId == user.value)
    && (month.Parsed? ==> t.month == month.value as real)
    && (year.Parsed? ==> t.year == year.value as real)
  }

  /** Listing order of `getTargets`: year descending, then month descending. */
  function YearMonth(entry: (Id, Target)): Sorting.SortKey {
    Sorting.SortKey(entry.1.year, entry.1.month)
  }

  /**
   * `getTargets`. `user` is the `user_id` query value, `None` when absent. A
   * malformed user id or a month or year that parses to NaN makes the query
   * fail to cast, which the handler reports as a server error.
   */
  method GetTargets(env: Env, targets: Targets, user: Option<string>, month: QueryInt, year: QueryInt)
    returns (o: Outcome<seq<(Id, Target)>>)
    ensures o.ServerError? <==> (Given(user) && !env.isValidId(user.value)) || month.NotANumber? || year.NotANumber?
    ensures Given(user) && !env.isValidId(user.value) ==> o == Internal(CastErrorMessage)
    ensures !(Given(user) && !env.isValidId(user.value)) && (month.NotANumber? || year.NotANumber?) ==>
      o == Internal(CastNumberMessage)
    ensures !o.ServerError? ==> o.Ok?
    ensures o.Ok? ==> Sorting.Sorted(o.value, YearMonth)
    ensures o.Ok? ==> forall i :: 0 <= i < |o.value| ==>
      o.value[i].0 in targets && o.value[i].1 == targets[o.value[i].0]
      && TargetMatches(o.value[i].1, user, month, year)
    ensures o.Ok? ==> forall id :: id in targets && TargetMatches(targets[id], user, month, year) ==>
      (id, targets[id]) in o.value
    ensures o.Ok? ==> forall i, j :: 0 <= i < j < |o.value| ==> o.value[i].0 != o.value[j].0
  {
    if Given(user) && !env.isValidId(user.value) {
      return Internal(CastErrorMessage);
    }
    if month.NotANumber? || year.NotANumber? {
      return Internal(CastNumberMessage);
    }
    var keep := set id | id in targets && TargetMatches(targets[id], user, month, year);
    var listing := Sorting.SortEntries(targets, keep, YearMonth);
    Sorting.ListingMembers(targets, keep, listing);
    return Ok(listing);
  }

  /**
   * `updateTarget`: the id format and the amount are checked before any
   * lookup; only `target_amount` changes.
   */
  function UpdateTarget(env: Env, targets: Targets, id: Id, amount: JsValue): (t: Transition<Targets, Target>)
    ensures t.outcome.BadRequest? <==> !env.isValidId(id) || !(amount.Num? && amount.n >= 0.0)
    ensures !env.isValidId(id) ==> t == Transition(targets, BadRequest("Validation failed", [InvalidId]))
    ensures env.isValidId(id) && !(amount.Num? && amount.n >= 0.0) ==>
      t == Transition(targets, Invalid("target_amount", BadAmount))
    ensures env.isValidId(id) && amount.Num? && amount.n >= 0.0 && id !in targets ==>
      t == Transition(targets, NotFound(TargetNotFound, [NoSuchTarget]))
    ensures t.outcome.NotFound? <==> env.isValidId(id) && amount.Num? && amount.n >= 0.0 && id !in targets
    ensures t.outcome.Ok? || t.outcome.BadRequest? || t.outcome.NotFound?
    ensures !t.outcome.Ok? ==> t.store == targets
    ensures t.outcome.Ok? ==>
      && id in targets
      && t.store.Keys == targets.Keys
      && (forall other :: other in targets && other != id ==> t.store[other] == targets[other])
      && t.store[id].userId == targets[id].userId
      && t.store[id].month == targets[id].month
      && t.store[id].year == targets[id].year
      && t.store[id].targetAmount == amount.n
      && t.outcome.value == t.store[id]
    ensures OneTargetPerKey(targets) ==> OneTargetPerKey(t.store)
  {
    if !env.isValidId(id) then Transition(targets, BadRequest("Validation failed", [InvalidId]))
    else if !amount.Num? || amount.n < 0.0 then
      Transition(targets, Invalid("target_amount", BadAmount))
    else if id !in targets then Transition(targets, NotFound(TargetNotFound, [NoSuchTarget]))
    else
      var updated := targets[id].(targetAmount := amount.n);
      Transition(targets[id := updated], Ok(updated))
  }

  /** `deleteTarget`: removes exactly the identified target. */
  function DeleteTarget(env: Env, targets: Targets, id: Id): (t: Transition<Targets, string>)
    ensures t.outcome.BadRequest? <==> !env.isValidId(id)
    ensures t.outcome.NotFound? <==> env.isValidId(id) && id !in targets
    ensures !env.isValidId(id) ==> t == Transition(targets, BadRequest("Validation failed", [InvalidId]))
    ensures env.isValidId(id) && id !in targets ==> t == Transition(targets, NotFound(TargetNotFound, [NoSuchTarget]))
    ensures t.outcome.Ok? || t.outcome.BadRequest? || t.outcome.NotFound?
    ensures !t.outcome.Ok? ==> t.store == targets
    ensures t.outcome.Ok? ==>
      && id in targets
      && t.outcome.value == Deleted
      && t.store.Keys == targets.Keys - {id}
      && (forall other :: other in t.store ==> t.store[other] == targets[other])
      && |t.store| == |targets| - 1
    ensures OneTargetPerKey(targets) ==> OneTargetPerKey(t.store)
  {
    if !env.isValidId(id) then Transition(targets, BadRequest("Validation failed", [InvalidId]))
    else if id !in targets then Transition(targets, NotFound(TargetNotFound, [NoSuchTarget]))
    else Transition(targets - {id}, Ok(Deleted))
  }
}

=== FILE: types.dfy ===
/**
 * The data model of the sales-performance API: request bodies as loosely typed
 * JSON values, the stored user, target and sale records, the commission
 * calculation record, and the outcome of an HTTP handler.
 */
module Types {
  import opened Wrappers

  /** Record identifiers (Mongo object ids, as the strings the handlers receive). */
  type Id = string

  /** A point in time, in milliseconds. */
  type Instant = int

  /**
   * A JSON value as it arrives in a request body; a missing property is
   * `Undefined`. Numbers are idealised as reals (no NaN, no infinities).
   */
  datatype JsValue = Undefined | Null | Bool(b: bool) | Num(n: real) | Str(s: string) | Object

  /** JavaScript falsiness: `!v` holds. */
  predicate Falsy(v: JsValue) {
    match v
    case Undefined => true
    case Null => true
    case Bool(b) => !b
    case Num(n) => n == 0.0
    case Str(s) => s == []
    case Object => false
  }

  /** The guard `!v || typeof v !== 'string'` shared by every required string field. */
  predicate MissingString(v: JsValue)
    ensures MissingString(v) <==> !(v.Str? && v.s != [])
  {
    Falsy(v) || !v.Str?
  }

  /** A query-string value that is present and non-empty, so `if (value)` adds it to the filter. */
  predicate Given(v: Option<string>) {
    v.Some? && v.value != []
  }

  /** A query-string integer after `parseInt`: absent or empty, parsed, or NaN. */
  datatype QueryInt = Missing | Parsed(value: int) | NotANumber

  /**
   * What the handlers take from their surroundings: date parsing
   * (`new Date(s)`, `None` for an invalid date), the clock, the instant one
   * calendar year after today's date, and `ObjectId.isValid`.
   */
  datatype Env = Env(
    parseDate: string -> Option<Instant>,
    now: Instant,
    oneYearAhead: Instant,
    isValidId: string -> bool)

  datatype Region = North | South | East | West

  const RegionNames: seq<string> := ["north", "south", "east", "west"]

  function RegionName(r: Region): string {
    match r
    case North => "north"
    case South => "south"
    case East => "east"
    case West => "west"
  }

  /** The region a request names, when it names one of the four (`validRegions.includes`). */
  function RegionOf(v: JsValue): (r: Option<Region>)
    ensures r.Some? <==> v.Str? && v.s in RegionNames
    ensures r.Some? ==> RegionName(r.value) == v.s
  {
    if v == Str("north") then Some(North)
    else if v == Str("south") then Some(South)
    else if v == Str("east") then Some(East)
    else if v == Str("west") then Some(West)
    else None
  }

  datatype Category = Software | Hardware | Consulting | Support

  const CategoryNames: seq<string> := ["software", "hardware", "consulting", "support"]

  function CategoryName(c: Category): string {
    match c
    case Software => "software"
    case Hardware => "hardware"
    case Consulting => "consulting"
    case Support => "support"
  }

  /** The product category a request names, when it names one of the four. */
  function CategoryOf(v: JsValue): (r: Option<Category>)
    ensures r.Some? <==> v.Str? && v.s in CategoryNames
    ensures r.Some? ==> CategoryName(r.value) == v.s
  {
    if v == Str("software") then Some(Software)
    else if v == Str("hardware") then Some(Hardware)
    else if v == Str("consulting") then Some(Consulting)
    else if v == Str("support") then Some(Support)
    else None
  }

  datatype Status = Active | Inactive

  function StatusName(s: Status): string {
    match s
    case Active => "active"
    case Inactive => "inactive"
  }

  /** One entry of an error response's `details`. */
  datatype ValidationError = ValidationError(field: string, message: string)

  /** Request bodies, one property per field of the request interfaces. */
  datatype UserRequest = UserRequest(name: JsValue, email: JsValue, region: JsValue, hireDate: JsValue)

  datatype SaleRequest = SaleRequest(
    userId: JsValue, amount: JsValue, date: JsValue, productCategory: JsValue, commissionRate: JsValue)

  datatype TargetRequest = TargetRequest(userId: JsValue, month: JsValue, year: JsValue, targetAmount: JsValue)

  /** Stored records. */
  datatype User = User(
    name: string, email: string, region: Region, hireDate: Instant,
    status: Status, currentRegionStart: Instant)

  datatype Target = Target(userId: Id, month: real, year: real, targetAmount: real)

  datatype Sale = Sale(userId: Id, amount: real, date: Instant, productCategory: Category, commissionRate: real)

  type Users = map<Id, User>
  type Targets = map<Id, Target>
  type Sales = map<Id, Sale>

  /** One segment of a month split by a region transfer. */
  datatype RegionTransfer = RegionTransfer(region: string, sales: real, days: int, commission: real)

  /** The per-month commission figure the calculation engine produces. */
  datatype CommissionCalculation = CommissionCalculation(
    userId: string, month: int, year: int,
    totalSales: real, baseCommission: real, tierBonus: real, regionalMultiplier: real,
    streakBonus: real, performancePenalty: real, totalCommission: real,
    targetHit: bool, regionTransfers: Option<seq<RegionTransfer>>)

  /** The response a handler sends, one constructor per status code it uses. */
  datatype Outcome<+T> =
    | Ok(value: T)
    | Created(value: T)
    | BadRequest(error: string, details: seq<ValidationError>)
    | NotFound(error: string, details: seq<ValidationError>)
    | ServerError(error: string, details: seq<ValidationError>)
  {
    function StatusCode(): int {
      match this
      case Ok(_) => 200
      case Created(_) => 201
      case BadRequest(_, _) => 400
      case NotFound(_, _) => 404
      case ServerError(_, _) => 500
    }
  }

  /** The 500 response every handler's `catch` block builds from a thrown error's message. */
  function Internal<T>(message: string): Outcome<T> {
    ServerError("Internal server error", [ValidationError("server", message)])
  }

  /** The 400 every handler answers for a single failing field. */
  function Invalid<T>(field: string, message: string): Outcome<T> {
    BadRequest("Validation failed", [ValidationError(field, message)])
  }

  /** The `error` of a 404 for a missing user, and the calculator's message for an unknown user. */
  const UserNotFound: string := "User not found"

  /** The message of the error a lookup by a malformed object id throws. */
  const CastErrorMessage: string := "Cast to ObjectId failed"

  /** A handler as a transition: the store after the request and the response sent. */
  datatype Transition<S, T> = Transition(store: S, outcome: Outcome<T>)
}

=== FILE: user_controller.dfy ===
/**
 * The user controller, with the user collection as a finite map from id to
 * record. Each handler is a transition from the store and the request to the
 * new store and the response.
 */
module UserController {
  import opened Wrappers
  import opened Types
  import Validation

  /** The store invariant the unique index on `email` keeps: no two users share an e-mail. */
  ghost predicate OneUserPerEmail(users: Users) {
    forall a, b :: a in users && b in users && a != b ==> users[a].email != users[b].email
  }

  /** `UserModel.findOne({email})` finds a record. */
  predicate EmailTaken(users: Users, email: string) {
    exists id | id in users :: users[id].email == email
  }

  const InvalidId: ValidationError := ValidationError("id", "Invalid user ID format")
  const NoSuchUser: ValidationError := ValidationError("id", "User with this ID does not exist")
  const EmailExists: ValidationError := ValidationError("email", "Email already exists")
  const Deactivated: string := "User deactivated successfully"
  const BadRegion: ValidationError := ValidationError("region", "Region must be one of: north, south, east, west")

  /** The record `createUser` builds from a validated request, as of `env.now`. */
  function NewUser(env: Env, req: UserRequest): User
    requires Validation.ValidateUserData(env, req) == []
  {
    User(req.name.s, req.email.s, RegionOf(req.region).value, env.parseDate(req.hireDate.s).value,
      Active, env.now)
  }

  /** `createUser`: validation, then the e-mail uniqueness check, then the insertion. */
  function CreateUser(env: Env, users: Users, req: UserRequest, newId: Id): (t: Transition<Users, User>)
    requires newId !in users
    ensures Validation.ValidateUserData(env, req) != [] ==>
      t == Transition(users, BadRequest("Validation failed", Validation.ValidateUserData(env, req)))
    ensures Validation.ValidateUserData(env, req) == [] && EmailTaken(users, req.email.s) ==>
      t == Transition(users, BadRequest("Validation failed", [EmailExists]))
    ensures t.outcome.Created? <==> Validation.ValidateUserData(env, req) == [] && !EmailTaken(users, req.email.s)
    ensures !t.outcome.Created? ==> t.store == users && t.outcome.BadRequest?
    ensures t.outcome.Created? ==>
      && t.store == users[newId := t.outcome.value]
      && t.outcome.value.status == Active
      && t.outcome.value.name == req.name.s
      && t.outcome.value.email == req.email.s
      && RegionName(t.outcome.value.region) == req.region.s
      && env.parseDate(req.hireDate.s) == Some(t.outcome.value.hireDate)
      && t.outcome.value.hireDate <= env.now
      && t.outcome.value.currentRegionStart == env.now
    ensures OneUserPerEmail(users) ==> OneUserPerEmail(t.store)
  {
    var errs := Validation.ValidateUserData(env, req);
    if errs != [] then Transition(users, BadRequest("Validation failed", errs))
    else if EmailTaken(users, req.email.s) then
      Transition(users, BadRequest("Validation failed", [EmailExists]))
    else
      var user := NewUser(env, req);
      Transition(users[newId := user], Created(user))
  }

  /** A user passes the filters `getUsers` builds from its query values. */
  predicate UserMatches(u: User, region: Option<string>, status: Option<string>) {
    && (Given(region) ==> RegionName(u.region) == region.value)
    && (Given(status) ==> StatusName(u.status) == status.value)
  }

  /** `getUsers`: exactly the users matching every supplied filter. */
  function GetUsers(users: Users, region: Option<string>, status: Option<string>): (r: Users)
    ensures forall id :: id in r ==> id in users && r[id] == users[id]
    ensures forall id :: id in users ==> (id in r <==> UserMatches(users[id], region, status))
    ensures !Given(region) && !Given(status) ==> r == users
    ensures Given(region) && region.value !in RegionNames ==> r == map[]
  {
    map id | id in users && UserMatches(users[id], region, status) :: users[id]
  }

  /**
   * `updateUserRegion`: the id format, then the region, then the lookup;
   * only the region and the region start date change.
   */
  function UpdateUserRegion(env: Env, users: Users, id: Id, region: JsValue): (t: Transition<Users, User>)
    ensures t.outcome.BadRequest? <==> !env.isValidId(id) || RegionOf(region).None?
    ensures !env.isValidId(id) ==> t == Transition(users, BadRequest("Validation failed", [InvalidId]))
    ensures env.isValidId(id) && RegionOf(region).None? ==>
      t == Transition(users, BadRequest("Validation failed", [BadRegion]))
    ensures env.isValidId(id) && RegionOf(region).Some? && id !in users ==>
      t == Transition(users, NotFound(UserNotFound, [NoSuchUser]))
    ensures t.outcome.NotFound? <==> env.isValidId(id) && RegionOf(region).Some? && id !in users
    ensures t.outcome.Ok? || t.outcome.BadRequest? || t.outcome.NotFound?
    ensures !t.outcome.Ok? ==> t.store == users
    ensures t.outcome.Ok? ==>
      && id in users
      && t.store.Keys == users.Keys
      && (forall other :: other in users && other != id ==> t.store[other] == users[other])
      && t.store[id] == users[id].(region := RegionOf(region).value, currentRegionStart := env.now)
      && RegionName(t.store[id].region) == region.s
      && t.outcome.value == t.store[id]
    ensures OneUserPerEmail(users) ==> OneUserPerEmail(t.store)
  {
    if !env.isValidId(id) then Transition(users, BadRequest("Validation failed", [InvalidId]))
    else if RegionOf(region).None? then Transition(users, BadRequest("Validation failed", [BadRegion]))
    else if id !in users then Transition(users, NotFound(UserNotFound, [NoSuchUser]))
    else
      var updated := users[id].(region := RegionOf(region).value, currentRegionStart := env.now);
      Transition(users[id := updated], Ok(updated))
  }

  /** `deleteUser`: a soft delete; the user stays and only its status becomes inactive. */
  function DeleteUser(env: Env, users: Users, id: Id): (t: Transition<Users, string>)
    ensures t.outcome.BadRequest? <==> !env.isValidId(id)
    ensures t.outcome.NotFound? <==> env.isValidId(id) && id !in users
    ensures !env.isValidId(id) ==> t == Transition(users, BadRequest("Validation failed", [InvalidId]))
    ensures env.isValidId(id) && id !in users ==> t == Transition(users, NotFound(UserNotFound, [NoSuchUser]))
    ensures t.outcome.Ok? || t.outcome.BadRequest? || t.outcome.NotFound?
    ensures !t.outcome.Ok? ==> t.store == users
    ensures t.outcome.Ok? ==>
      && id in users
      && t.outcome.value == Deactivated
      && t.store.Keys == users.Keys
      && (forall other :: other in users && other != id ==> t.store[other] == users[other])
      && t.store[id].status == Inactive
      && t.store[id] == users[id].(status := Inactive)
    ensures OneUserPerEmail(users) ==> OneUserPerEmail(t.store)
  {
    if !env.isValidId(id) then Transition(users, BadRequest("Validation failed", [InvalidId]))
    else if id !in users then Transition(users, NotFound(UserNotFound, [NoSuchUser]))
    else Transition(users[id := users[id].(status := Inactive)], Ok(Deactivated))
  }
}

=== FILE: validation.dfy ===
/**
 * The validation service: pure checks mapping a request body to the ordered
 * list of `{field, message}` errors it provokes, and the bulk partition of a
 * batch of sale requests into valid items and indexed error lists.
 */
module Validation {
  import opened Wrappers
  import opened Types
  import Email

  // ---------------------------------------------------------------------------
  // Reporting order
  // ---------------------------------------------------------------------------

  /** The `field` of each error, in order. */
  function FieldsOf(errs: seq<ValidationError>): (fs: seq<string>)
    ensures |fs| == |errs|
  {
    if errs == [] then [] else [errs[0].field] + FieldsOf(errs[1..])
  }

  lemma {:induction false} FieldsOfAppend(a: seq<ValidationError>, b: seq<ValidationError>)
    ensures FieldsOf(a + b) == FieldsOf(a) + FieldsOf(b)
  {
    if a == [] {
      assert a + b == b;
    } else {
      assert (a + b)[1..] == a[1..] + b;
      FieldsOfAppend(a[1..], b);
    }
  }

  /** The singleton `[f]` when `bad`, else the empty sequence. */
  function IfRejected(bad: bool, f: string): seq<string> {
    if bad then [f] else []
  }

  // ---------------------------------------------------------------------------
  // Field checks shared by several validators
  // ---------------------------------------------------------------------------

  /** A whole number of cents. */
  function Cents(c: int): real {
    c as real / 100.0
  }

  /** `validateAmount`: positive with at most two decimals (the `toFixed(2)` round trip on reals). */
  function ValidateAmount(x: real): (ok: bool)
    ensures ok <==> x > 0.0 && exists c :: x == Cents(c)
  {
    var scaled := x * 100.0;
    if scaled.Floor as real == scaled then
      assert x == Cents(scaled.Floor);
      x > 0.0
    else
      assert forall c :: x != Cents(c) by {
        forall c ensures x != Cents(c) {
        }
      }
      false
  }

  /** `validateDate`: the string parses to an instant. */
  predicate ValidateDate(env: Env, s: string) {
    env.parseDate(s).Some?
  }

  const UserIdRequired: ValidationError := ValidationError("user_id", "User ID is required")

  function UserIdErrors(v: JsValue): (r: seq<ValidationError>)
    ensures FieldsOf(r) == IfRejected(!(v.Str? && v.s != []), "user_id")
    ensures !(v.Str? && v.s != []) ==> r == [UserIdRequired]
  {
    if MissingString(v) then [UserIdRequired] else []
  }

  // ---------------------------------------------------------------------------
  // Users
  // ---------------------------------------------------------------------------

  predicate NameAccepted(v: JsValue) {
    v.Str? && 2 <= |v.s| <= 50
  }

  ghost predicate EmailAccepted(v: JsValue) {
    v.Str? && Email.Shape(v.s)
  }

  predicate HireDateAccepted(env: Env, v: JsValue) {
    v.Str? && v.s != [] && env.parseDate(v.s).Some? && env.parseDate(v.s).value <= env.now
  }

  const NameRequired: ValidationError := ValidationError("name", "Name is required")
  const NameLength: ValidationError := ValidationError("name", "Name must be between 2 and 50 characters")

  /** A missing name and one of the wrong length are told apart. */
  function NameErrors(v: JsValue): (r: seq<ValidationError>)
    ensures FieldsOf(r) == IfRejected(!NameAccepted(v), "name")
    ensures !(v.Str? && v.s != []) ==> r == [NameRequired]
    ensures v.Str? && v.s != [] && !NameAccepted(v) ==> r == [NameLength]
  {
    if MissingString(v) then [NameRequired]
    else if |v.s| < 2 || |v.s| > 50 then [NameLength]
    else []
  }

  const EmailRequired: ValidationError := ValidationError("email", "Email is required")
  const EmailFormat: ValidationError := ValidationError("email", "Email format is invalid")

  /** A missing e-mail and one not of the pattern's shape are told apart. */
  function EmailErrors(v: JsValue): (r: seq<ValidationError>)
    ensures FieldsOf(r) == IfRejected(!EmailAccepted(v), "email")
    ensures !(v.Str? && v.s != []) ==> r == [EmailRequired]
    ensures v.Str? && v.s != [] && !Email.Shape(v.s) ==> r == [EmailFormat]
  {
    if MissingString(v) then
      assert !Email.ValidateEmail(if v.Str? then v.s else []);
      [EmailRequired]
    else if !Email.ValidateEmail(v.s) then [EmailFormat]
    else []
  }

  const RegionUnknown: ValidationError := ValidationError("region", "Region must be one of: north, south, east, west")

  function RegionErrors(v: JsValue): (r: seq<ValidationError>)
    ensures FieldsOf(r) == IfRejected(RegionOf(v).None?, "region")
    ensures RegionOf(v).None? ==> r == [RegionUnknown]
  {
    if Falsy(v) || !(v.Str? && v.s in RegionNames) then [RegionUnknown]
    else []
  }

  const HireDateRequired: ValidationError := ValidationError("hire_date", "Hire date is required")
  const HireDateFormat: ValidationError := ValidationError("hire_date", "Hire date format is invalid")
  const HireDateFuture: ValidationError := ValidationError("hire_date", "Hire date cannot be in the future")

  /** A missing, an unparsable and a future hire date are told apart. */
  function HireDateErrors(env: Env, v: JsValue): (r: seq<ValidationError>)
    ensures FieldsOf(r) == IfRejected(!HireDateAccepted(env, v), "hire_date")
    ensures !(v.Str? && v.s != []) ==> r == [HireDateRequired]
    ensures v.Str? && v.s != [] && env.parseDate(v.s).None? ==> r == [HireDateFormat]
    ensures v.Str? && v.s != [] && env.parseDate(v.s).Some? && env.parseDate(v.s).value > env.now ==>
      r == [HireDateFuture]
  {
    if MissingString(v) then [HireDateRequired]
    else if !ValidateDate(env, v.s) then [HireDateFormat]
    else if env.parseDate(v.s).value > env.now then [HireDateFuture]
    else []
  }

  ghost predicate UserAccepted(env: Env, req: UserRequest) {
    NameAccepted(req.name) && EmailAccepted(req.email) && RegionOf(req.region).Some?
    && HireDateAccepted(env, req.hireDate)
  }

  /**
   * `validateUserData`: one error for each failing field, in the order name,
   * email, region, hire date; no error exactly when every field is accepted.
   */
  function ValidateUserData(env: Env, req: UserRequest): (r: seq<ValidationError>)
    ensures FieldsOf(r)
         == IfRejected(!NameAccepted(req.name), "name")
          + IfRejected(!EmailAccepted(req.email), "email")
          + IfRejected(RegionOf(req.region).None?, "region")
          + IfRejected(!HireDateAccepted(env, req.hireDate), "hire_date")
    ensures r == [] <==> UserAccepted(env, req)
  {
    var a, b, c, d := NameErrors(req.name), EmailErrors(req.email), RegionErrors(req.region),
      HireDateErrors(env, req.hireDate);
    FieldsOfAppend(a, b);
    FieldsOfAppend(a + b, c);
    FieldsOfAppend(a + b + c, d);
    a + b + c + d
  }

  // ---------------------------------------------------------------------------
  // Sales
  // ---------------------------------------------------------------------------

  ghost predicate AmountAccepted(v: JsValue) {
    v.Num? && v.n > 0.0 && exists c :: v.n == Cents(c)
  }

  predicate SaleDateAccepted(env: Env, v: JsValue) {
    v.Str? && v.s != [] && env.parseDate(v.s).Some? && env.parseDate(v.s).value <= env.oneYearAhead
  }

  predicate RateAccepted(v: JsValue) {
    v.Undefined? || (v.Num? && 0.0 <= v.n <= 20.0)
  }

  const NotPositiveMessage: string := "Amount must be positive"
  const AmountNotNumber: ValidationError := ValidationError("amount", "Amount must be a number")
  const AmountDecimals: ValidationError := ValidationError("amount", "Amount must have at most 2 decimal places")

  /** The amount is checked for being a number, then positive, then whole cents; at most one error. */
  function AmountErrors(v: JsValue): (r: seq<ValidationError>)
    ensures FieldsOf(r) == IfRejected(!AmountAccepted(v), "amount")
    ensures !v.Num? ==> r == [AmountNotNumber]
    ensures v.Num? && v.n <= 0.0 ==> r == [ValidationError("amount", NotPositiveMessage)]
    ensures v.Num? && v.n > 0.0 && !AmountAccepted(v) ==> r == [AmountDecimals]
  {
    if !v.Num? then [AmountNotNumber]
    else if v.n <= 0.0 then [ValidationError("amount", NotPositiveMessage)]
    else if !ValidateAmount(v.n) then [AmountDecimals]
    else []
  }

  const DateRequired: ValidationError := ValidationError("date", "Date is required")
  const DateFormat: ValidationError := ValidationError("date", "Date format is invalid")
  const DateTooFar: ValidationError := ValidationError("date", "Date cannot be more than 1 year in the future")

  /** A missing, an unparsable and a too distant sale date are told apart. */
  function SaleDateErrors(env: Env, v: JsValue): (r: seq<ValidationError>)
    ensures FieldsOf(r) == IfRejected(!SaleDateAccepted(env, v), "date")
    ensures !(v.Str? && v.s != []) ==> r == [DateRequired]
    ensures v.Str? && v.s != [] && env.parseDate(v.s).None? ==> r == [DateFormat]
    ensures v.Str? && v.s != [] && env.parseDate(v.s).Some? && env.parseDate(v.s).value > env.oneYearAhead ==>
      r == [DateTooFar]
  {
    if MissingString(v) then [DateRequired]
    else if !ValidateDate(env, v.s) then [DateFormat]
    else if env.parseDate(v.s).value > env.oneYearAhead then [DateTooFar]
    else []
  }

  const CategoryUnknown: ValidationError :=
    ValidationError("product_category", "Product category must be one of: software, hardware, consulting, support")

  function CategoryErrors(v: JsValue): (r: seq<ValidationError>)
    ensures FieldsOf(r) == IfRejected(CategoryOf(v).None?, "product_category")
    ensures CategoryOf(v).None? ==> r == [CategoryUnknown]
  {
    if Falsy(v) || !(v.Str? && v.s in CategoryNames) then [CategoryUnknown]
    else []
  }

  const RateNotNumber: ValidationError := ValidationError("commission_rate", "Commission rate must be a number")
  const RateRange: ValidationError := ValidationError("commission_rate", "Commission rate must be between 0 and 20")

  /** The commission rate is optional: an absent rate is accepted, a present one must be a number in [0, 20]. */
  function RateErrors(v: JsValue): (r: seq<ValidationError>)
    ensures FieldsOf(r) == IfRejected(!RateAccepted(v), "commission_rate")
    ensures !v.Undefined? && !v.Num? ==> r == [RateNotNumber]
    ensures v.Num? && !(0.0 <= v.n <= 20.0) ==> r == [RateRange]
  {
    if !v.Undefined? then
      if !v.Num? then [RateNotNumber]
      else if v.n < 0.0 || v.n > 20.0 then [RateRange]
      else []
    else []
  }

  ghost predicate SaleAccepted(env: Env, req: SaleRequest) {
    && req.userId.Str? && req.userId.s != []
    && AmountAccepted(req.amount)
    && SaleDateAccepted(env, req.date)
    && CategoryOf(req.productCategory).Some?
    && RateAccepted(req.commissionRate)
  }

  /**
   * `validateSaleData`: one error for each failing field, in the order user id,
   * amount, date, category, commission rate.
   */
  function ValidateSaleData(env: Env, req: SaleRequest): (r: seq<ValidationError>)
    ensures FieldsOf(r)
         == IfRejected(!(req.userId.Str? && req.userId.s != []), "user_id")
          + IfRejected(!AmountAccepted(req.amount), "amount")
          + IfRejected(!SaleDateAccepted(env, req.date), "date")
          + IfRejected(CategoryOf(req.productCategory).None?, "product_category")
          + IfRejected(!RateAccepted(req.commissionRate), "commission_rate")
    ensures r == [] <==> SaleAccepted(env, req)
    ensures r == [] ==> req.amount.Num? && req.amount.n > 0.0
  {
    var a, b, c, d, e := UserIdErrors(req.userId), AmountErrors(req.amount), SaleDateErrors(env, req.date),
      CategoryErrors(req.productCategory), RateErrors(req.commissionRate);
    FieldsOfAppend(a, b);
    FieldsOfAppend(a + b, c);
    FieldsOfAppend(a + b + c, d);
    FieldsOfAppend(a + b + c + d, e);
    a + b + c + d + e
  }

  // ---------------------------------------------------------------------------
  // Targets
  // ---------------------------------------------------------------------------

  predicate MonthAccepted(v: JsValue) {
    v.Num? && 1.0 <= v.n <= 12.0
  }

  predicate YearAccepted(v: JsValue) {
    v.Num? && v.n >= 2020.0
  }

  predicate TargetAmountAccepted(v: JsValue) {
    v.Num? && v.n >= 0.0
  }

  const MonthNotNumber: ValidationError := ValidationError("month", "Month must be a number")
  const MonthRange: ValidationError := ValidationError("month", "Month must be between 1 and 12")
  const YearNotNumber: ValidationError := ValidationError("year", "Year must be a number")
  const YearTooEarly: ValidationError := ValidationError("year", "Year must be 2020 or later")
  const TargetAmountNotNumber: ValidationError := ValidationError("target_amount", "Target amount must be a number")
  const TargetAmountNegative: ValidationError := ValidationError("target_amount", "Target amount must be positive")

  function MonthErrors(v: JsValue): (r: seq<ValidationError>)
    ensures FieldsOf(r) == IfRejected(!MonthAccepted(v), "month")
    ensures !v.Num? ==> r == [MonthNotNumber]
    ensures v.Num? && !MonthAccepted(v) ==> r == [MonthRange]
  {
    if !v.Num? then [MonthNotNumber]
    else if v.n < 1.0 || v.n > 12.0 then [MonthRange]
    else []
  }

  function YearErrors(v: JsValue): (r: seq<ValidationError>)
    ensures FieldsOf(r) == IfRejected(!YearAccepted(v), "year")
    ensures !v.Num? ==> r == [YearNotNumber]
    ensures v.Num? && !YearAccepted(v) ==> r == [YearTooEarly]
  {
    if !v.Num? then [YearNotNumber]
    else if v.n < 2020.0 then [YearTooEarly]
    else []
  }

  /** A negative amount is rejected; zero is accepted although the message speaks of "positive". */
  function TargetAmountErrors(v: JsValue): (r: seq<ValidationError>)
    ensures FieldsOf(r) == IfRejected(!TargetAmountAccepted(v), "target_amount")
    ensures !v.Num? ==> r == [TargetAmountNotNumber]
    ensures v.Num? && v.n < 0.0 ==> r == [TargetAmountNegative]
  {
    if !v.Num? then [TargetAmountNotNumber]
    else if v.n < 0.0 then [TargetAmountNegative]
    else []
  }

  /**
   * `validateTargetData`: no error exactly when the user id is a non-empty
   * string, the month a number in [1, 12], the year a number no earlier than
   * 2020 and the amount a non-negative number (zero is accepted).
   */
  function ValidateTargetData(req: TargetRequest): (r: seq<ValidationError>)
    ensures FieldsOf(r)
         == IfRejected(!(req.userId.Str? && req.userId.s != []), "user_id")
          + IfRejected(!MonthAccepted(req.month), "month")
          + IfRejected(!YearAccepted(req.year), "year")
          + IfRejected(!TargetAmountAccepted(req.targetAmount), "target_amount")
    ensures r == [] <==>
      && req.userId.Str? && req.userId.s != []
      && req.month.Num? && 1.0 <= req.month.n <= 12.0
      && req.year.Num? && req.year.n >= 2020.0
      && req.targetAmount.Num? && req.targetAmount.n >= 0.0
  {
    var a, b, c, d := UserIdErrors(req.userId), MonthErrors(req.month), YearErrors(req.year),
      TargetAmountErrors(req.targetAmount);
    FieldsOfAppend(a, b);
    FieldsOfAppend(a + b, c);
    FieldsOfAppend(a + b + c, d);
    a + b + c + d
  }

  // ---------------------------------------------------------------------------
  // Bulk partition
  // ---------------------------------------------------------------------------

  datatype IndexedErrors = IndexedErrors(index: nat, errors: seq<ValidationError>)

  datatype BulkValidation<T> = BulkValidation(valid: seq<T>, errors: seq<IndexedErrors>)

  /** The items that `check` passes, in input order. */
  function Passing<T>(check: T -> seq<ValidationError>, items: seq<T>): seq<T> {
    if items == [] then []
    else (if check(items[0]) == [] then [items[0]] else []) + Passing(check, items[1..])
  }

  lemma {:induction false} PassingSnoc<T>(check: T -> seq<ValidationError>, items: seq<T>, x: T)
    ensures Passing(check, items + [x]) == Passing(check, items) + (if check(x) == [] then [x] else [])
  {
    if items == [] {
      assert items + [x] == [x];
    } else {
      assert (items + [x])[1..] == items[1..] + [x];
      PassingSnoc(check, items[1..], x);
    }
  }

  /** Some entry of `errors` is about item `i`. */
  ghost predicate Reported(errors: seq<IndexedErrors>, i: int) {
    exists k :: 0 <= k < |errors| && errors[k].index == i
  }

  /**
   * The `forEach` of `validateBulkSalesData` for an arbitrary item check:
   * every item goes to exactly one side; the valid side keeps input order;
   * each error entry names its item's index, in increasing order, and carries
   * that item's non-empty error list.
   */
  function Partition<T>(check: T -> seq<ValidationError>, items: seq<T>): (r: BulkValidation<T>)
    ensures |r.valid| + |r.errors| == |items|
    ensures r.valid == Passing(check, items)
    ensures forall k :: 0 <= k < |r.errors| ==>
      && r.errors[k].index < |items|
      && r.errors[k].errors == check(items[r.errors[k].index])
      && r.errors[k].errors != []
    ensures forall k, l :: 0 <= k < l < |r.errors| ==> r.errors[k].index < r.errors[l].index
    decreases |items|
  {
    if items == [] then BulkValidation([], [])
    else
      var n := |items| - 1;
      var prefix := items[..n];
      var r := Partition(check, prefix);
      var errs := check(items[n]);
      assert prefix + [items[n]] == items;
      PassingSnoc(check, prefix, items[n]);
      assert forall i :: 0 <= i < n ==> items[i] == prefix[i];
      if errs == [] then BulkValidation(r.valid + [items[n]], r.errors)
      else BulkValidation(r.valid, r.errors + [IndexedErrors(n, errs)])
  }

  /** An item is reported on the error side exactly when the check rejects it. */
  lemma {:induction false} PartitionReportsRejected<T>(check: T -> seq<ValidationError>, items: seq<T>)
    ensures forall i :: 0 <= i < |items| ==>
      (check(items[i]) != [] <==> Reported(Partition(check, items).errors, i))
    decreases |items|
  {
    if items != [] {
      var n := |items| - 1;
      var prefix := items[..n];
      var r := Partition(check, prefix);
      var all := Partition(check, items);
      PartitionReportsRejected(check, prefix);
      assert prefix + [items[n]] == items;
      assert forall i :: 0 <= i < n ==> items[i] == prefix[i];
      forall i | 0 <= i < |items|
        ensures check(items[i]) != [] <==> Reported(all.errors, i)
      {
        if check(items[n]) == [] {
          assert all.errors == r.errors;
        } else {
          assert all.errors == r.errors + [IndexedErrors(n, check(items[n]))];
          if i == n {
            assert all.errors[|r.errors|].index == n;
          } else {
            if Reported(all.errors, i) {
              var k :| 0 <= k < |all.errors| && all.errors[k].index == i;
              assert k < |r.errors|;
            }
            if Reported(r.errors, i) {
              var k :| 0 <= k < |r.errors| && r.errors[k].index == i;
              assert all.errors[k].index == i;
            }
          }
        }
      }
    }
  }

  /** `validateSaleData` as an item check. */
  function SaleCheck(env: Env): SaleRequest -> seq<ValidationError> {
    req => ValidateSaleData(env, req)
  }

  /** `validateBulkSalesData`: the partition of a batch by `validateSaleData`. */
  function ValidateBulkSalesData(env: Env, items: seq<SaleRequest>): (r: BulkValidation<SaleRequest>)
    ensures |r.valid| + |r.errors| == |items|
    ensures r.valid == Passing(SaleCheck(env), items)
    ensures r.errors == Partition(SaleCheck(env), items).errors
  {
    Partition(SaleCheck(env), items)
  }

  /**
   * The two sides of a bulk validation: every valid item passes
   * `validateSaleData`, and every error entry carries its item's errors.
   */
  lemma BulkSalesSides(env: Env, items: seq<SaleRequest>)
    ensures forall v :: v in ValidateBulkSalesData(env, items).valid ==> ValidateSaleData(env, v) == []
    ensures forall k :: 0 <= k < |ValidateBulkSalesData(env, items).errors| ==>
      var e := ValidateBulkSalesData(env, items).errors[k];
      e.index < |items| && e.errors == ValidateSaleData(env, items[e.index]) != []
  {
    var r := Partition(SaleCheck(env), items);
    forall v | v in r.valid ensures ValidateSaleData(env, v) == [] {
      PassingMember(SaleCheck(env), items, v);
    }
  }

  /** Every item's errors, concatenated in index order. */
  function AllErrors<T>(check: T -> seq<ValidationError>, items: seq<T>): seq<ValidationError> {
    if items == [] then []
    else AllErrors(check, items[..|items| - 1]) + check(items[|items| - 1])
  }

  /** `errors.flatMap(e => e.errors)`. */
  function Flatten(errors: seq<IndexedErrors>): seq<ValidationError> {
    if errors == [] then [] else errors[0].errors + Flatten(errors[1..])
  }

  lemma {:induction false} FlattenSnoc(errors: seq<IndexedErrors>, e: IndexedErrors)
    ensures Flatten(errors + [e]) == Flatten(errors) + e.errors
  {
    if errors == [] {
      assert errors + [e] == [e];
    } else {
      assert (errors + [e])[1..] == errors[1..] + [e];
      FlattenSnoc(errors[1..], e);
    }
  }

  /** A member of `Passing` is an item of the batch that passes the check. */
  lemma {:induction false} PassingMember<T>(check: T -> seq<ValidationError>, items: seq<T>, v: T)
    requires v in Passing(check, items)
    ensures exists i :: 0 <= i < |items| && items[i] == v && check(v) == []
  {
    if items != [] {
      if v in Passing(check, items[1..]) {
        PassingMember(check, items[1..], v);
        var i :| 0 <= i < |items[1..]| && items[1..][i] == v && check(v) == [];
        assert items[i + 1] == v;
      } else {
        assert items[0] == v;
      }
    }
  }

  /** No item of the batch passes exactly when the valid side is empty. */
  lemma NothingPassesIffAllRejected<T>(check: T -> seq<ValidationError>, items: seq<T>)
    ensures Partition(check, items).valid == []
        <==> forall i :: 0 <= i < |items| ==> check(items[i]) != []
  {
    var r := Partition(check, items);
    if r.valid == [] {
      IndicesAreAll(r.errors, |items|);
      forall i | 0 <= i < |items| ensures check(items[i]) != [] {
        assert r.errors[i].index == i;
      }
    } else {
      PassingMember(check, items, r.valid[0]);
    }
  }

  /** A strictly increasing sequence of `n` indices below `n` is 0, 1, ..., n-1. */
  lemma IndicesAreAll(errors: seq<IndexedErrors>, n: nat)
    requires |errors| == n
    requires forall k :: 0 <= k < |errors| ==> errors[k].index < n
    requires forall k, l :: 0 <= k < l < |errors| ==> errors[k].index < errors[l].index
    ensures forall k :: 0 <= k < |errors| ==> errors[k].index == k
  {
    forall k | 0 <= k < |errors| ensures errors[k].index == k {
      LowerBound(errors, k);
      UpperBound(errors, k, n);
    }
  }

  lemma {:induction false} LowerBound(errors: seq<IndexedErrors>, k: nat)
    requires k < |errors|
    requires forall p, q :: 0 <= p < q < |errors| ==> errors[p].index < errors[q].index
    ensures errors[k].index >= k
  {
    if k > 0 {
      LowerBound(errors, k - 1);
    }
  }

  lemma {:induction false} UpperBound(errors: seq<IndexedErrors>, k: nat, n: nat)
    requires k < |errors| == n
    requires forall p :: 0 <= p < |errors| ==> errors[p].index < n
    requires forall p, q :: 0 <= p < q < |errors| ==> errors[p].index < errors[q].index
    ensures errors[k].index <= k
    decreases n - k
  {
    if k < n - 1 {
      UpperBound(errors, k + 1, n);
    }
  }

  /**
   * When nothing in the batch passes, the flattened error lists are every
   * item's errors in index order.
   */
  lemma {:induction false} FlattenAllRejected<T>(check: T -> seq<ValidationError>, items: seq<T>)
    requires Partition(check, items).valid == []
    ensures Flatten(Partition(check, items).errors) == AllErrors(check, items)
    decreases |items|
  {
    if items != [] {
      var n := |items| - 1;
      var prefix := items[..n];
      NothingPassesIffAllRejected(check, items);
      NothingPassesIffAllRejected(check, prefix);
      assert forall i :: 0 <= i < n ==> items[i] == prefix[i];
      FlattenAllRejected(check, prefix);
      FlattenSnoc(Partition(check, prefix).errors, IndexedErrors(n, check(items[n])));
    }
  }
}

=== FILE: wrappers.dfy ===
/** Option and Result, the failure-carrying datatypes used throughout the model. */
module Wrappers {

  /** An optional value: `None` plays the part of a missing record or an unparsable input. */
  datatype Option<+T> = None | Some(value: T)

  /** Either a value or an error message; models a call that may throw. */
  datatype Result<+R> = Success(value: R) | Failure(error: string)
}
